=== FILE: README.md ===
# pistol: a model of the distance functions and the sphere tracers

pistol draws a 3D scene as ASCII art in a terminal. The scene is a signed
distance function (SDF): a real number per point, negative inside a shape,
zero on its surface and positive outside. For every cell of a character
buffer, the renderer does three things:

1. It marches a ray from the camera with sphere tracing.
2. It lights the point the ray reaches, using a soft-shadow diffuse term, a
   clamped specular term and an ambient share.
3. It turns the brightness into a glyph of a 69-glyph palette that runs from
   `$` (densest) to ` ` (blank).

The project models this core in Dafny. `Vectors`, `Sdf`, `Renderer`, `Camera`, `Screen` and `Buffer` follow the source files; `Numeric`, `Marching` and `Shading` hold what several of them share:

| module | file | models |
|---|---|---|
| `Numeric` | `numeric.dfy` | f32 scalars as reals; `round`; the `as usize` cast; `sqrt`, `sin`, `cos` and `atan` as a record of functions, with the laws the proofs use |
| `Vectors` | `vector.dfy` | the vector algebra of `src/vector.rs` and of `cgmath`; the rotations about the z and x axes |
| `Sdf` | `sdf.dfy` | `Sphere`, `SDBox` and `Gear` |
| `Marching` | `marching.dfy` | the sphere-tracing loop and the shadow ray, generic in the scene |
| `Shading` | `shading.dfy` | the specular clamp, the brightness blend, the palette index |
| `Renderer` | `renderer.dfy` | `Renderer`: ray march, diffuse and specular lighting, light point, render |
| `Camera` | `camera.dfy` | `Camera`: softmin, the gear at rest, its own tracer and penumbra, the buffer fill |
| `Screen` | `screen.dfy` | `ScreenIterator` |
| `Buffer` | `buffer.dfy` | `Buffer::from_height` and the palette |

How the model stands in for things it cannot compute:

- **Square roots and trigonometry.** These are fields of a `Math` record passed as a parameter. The predicate `Lawful` states what the proofs may assume about them:
  - `sqrt` is non-negative and squares back; its sign facts (zero at zero, positive on positive numbers) are stated outright too, and `Numeric.SqrtSignFromSquares` shows they follow from the squaring law;
  - `sin² + cos² = 1`;
  - `sin 0 = 0`, `cos 0 = 1` and `atan 0 = 0`.
- **The scene.** The marchers, the lighting and the render loops take it as a function parameter `Vector -> real`. `Camera.Render` passes `Camera.Scene`, the one-gear scene of `Camera::sdf`.
- **Loop results.** Each loop is a method with a reference function beside it:
  - `TracePoint`/`Sample` give the sequence of points and samples of the sphere tracer;
  - `ShadowT`/`ShadowSample` give the shadow ray;
  - `Trace` and `ShadowStop` say where each loop stops, and `ShadowFactor` is the shadow term that results.

  The contracts tie what a method returns to these sequences. For example, a hit is reported exactly when some sample within the budget is below the threshold, and the shadow term is 0 exactly when some sample along the shadow ray is below the occlusion epsilon.
- **NaN results.** Where f32 would produce a NaN that `f32::min` then ignores, the model uses `Option`. This covers a flat normal, a penumbra candidate with a zero denominator or a negative radicand, and the angle `atan(0/0)` of a point on the gear's axis.

## Model

| member | source | states |
|---|---|---|
| Numeric.Round | src/sdf.rs:69 | `f32::round` lands within one half of its argument, and strictly closer on the side away from zero (ties round away from zero) |
| Numeric.AsUsize | src/renderer.rs:36 | the `as usize` cast truncates toward zero: a negative value gives 0, and a non-negative one gives the largest whole number not above it |
| Numeric.RoundOdd | src/sdf.rs:69 | rounding is symmetric about zero, so a sector index is mirrored when the angle is |
| Numeric.AsUsizeMonotone | src/renderer.rs:36 | the cast never reverses the order of two values |
| Vectors.AddSubCancel | src/vector.rs:17-37 | componentwise add and sub undo each other, `(a + b) - b == a`, and add is commutative |
| Vectors.DotSymmetric | src/vector.rs:61-66 | the dot product is symmetric |
| Vectors.MagnitudeSquaredIsSelfDot | src/vector.rs:69-71 | `magnitude_squared(v)` is `v * v` |
| Vectors.MagnitudeSquaredSign | src/vector.rs:69-71 | the squared magnitude is non-negative, and zero exactly for the zero vector |
| Vectors.ScaleByOneAndDivByReciprocal | src/vector.rs:39-59 | scaling by 1 is the identity, and dividing by `r` is scaling by `1/r` for `r != 0` |
| Vectors.TryNormalize | src/vector.rs:77-80 | normalising yields a vector exactly for a nonzero vector (the zero vector gives NaNs); that vector scaled back by the magnitude is the input, and it has unit length wherever `sqrt` is exact on the squared magnitude, as it is under the `sqrt` laws (`Vectors.ExactMagnitude`) |
| Vectors.MagnitudeSign | src/vector.rs:69-75 | a magnitude is never negative, and positive exactly for a nonzero vector |
| Vectors.NonZeroMagnitude | src/vector.rs:73-75 | a nonzero vector has a positive magnitude |
| Vectors.ExactMagnitude | src/vector.rs:69-75 | under the `sqrt` laws the magnitude squared is the sum of the squared components |
| Vectors.NormalizedIsUnit | src/vector.rs:77-80 | a normalised vector has unit length wherever `sqrt` is exact on its squared magnitude |
| Vectors.ScaleMagnitudeSquared | src/vector.rs:39-48 | scaling by `c` multiplies the squared magnitude by `c²` |
| Vectors.RotateZPreservesRadius | src/vector.rs:82-89 | `rotate_z` keeps z and the radius `x² + y²` |
| Vectors.RotateXPreservesRadius | src/sdf.rs:61-65 | the rotation about the x axis keeps x and the radius `y² + z²` |
| Vectors.RotateXByZero | src/sdf.rs:61-65 | rotating by angle 0 leaves the point unchanged |
| Sdf.SphereSdfLowerBound | src/sdf.rs:16-19 | the sphere's distance is never below `-radius`, because a magnitude is never negative |
| Sdf.SphereSdfAtCenter | src/sdf.rs:16-19 | at its own center the sphere's distance is `-radius` |
| Sdf.ObjectSdfTimeInvariant | src/sdf.rs:16-32 | the sphere and the box ignore time |
| Sdf.IntendedObjectSdfAgrees | src/sdf.rs:16-93 | the corrected dispatch agrees with `Object::sdf` as written for spheres, boxes and gears centered at the origin |
| Sdf.OuterDistance | src/sdf.rs:31 | the outer term is the square root of zero when the point sticks out of the box along no axis |
| Sdf.BoxTerms | src/sdf.rs:29-31 | the outer term of the box distance is nonzero exactly outside the box, where the inner term is 0; the inner term is never positive |
| Sdf.BoxSdfSign | src/sdf.rs:28-32 | given only the sign laws of `sqrt`, the box distance is positive exactly when some axis offset exceeds half the size; otherwise it is at most 0 |
| Sdf.BoxSdfInside | src/sdf.rs:29-31 | inside the box the distance is the inner term `min(max(q.y, q.z, q.x), 0)` |
| Sdf.BoxSdfAtCenter | src/sdf.rs:29-31 | at its center a box is at distance `-min(size)/2` |
| Sdf.BoxSdfReflection | src/sdf.rs:28-32 | reflecting the point through the center leaves the box distance unchanged |
| Sdf.Ring | src/sdf.rs:50-54 | the hollow ring term is never below `-thickness/2` |
| Sdf.RingIgnoresX | src/sdf.rs:51-53 | the ring term does not depend on `point.x` |
| Sdf.GearPhaseAdvance | src/sdf.rs:57-60 | after `turn_rate` time units the gear has turned by exactly one sector |
| Sdf.FoldShape | src/sdf.rs:67-75 | the sector fold keeps x and gives a non-negative y; exactly the points on the x axis, where `atan(0/0)` is NaN, fold to `(x, NaN, NaN)` |
| Sdf.GearFoldShape | src/sdf.rs:59-75 | turning by the time phase and then folding keeps x and gives a non-negative y; a point on the x axis folds to `(x, NaN, NaN)` |
| Sdf.AxisExcessBox | src/sdf.rs:28-32 | at a point whose y and z are NaN, `SDBox::sdf` is its excess along x, `abs(center.x - x) - size.x / 2`, because `f32::max`/`min` drop the NaN operands |
| Sdf.TeethOnAxis | src/sdf.rs:67-88 | on the x axis the teeth term is `abs(x) - 3 thickness / 4` |
| Sdf.GearOnAxis | src/sdf.rs:43-96 | on the x axis the gear's distance is exactly the slab's, `abs(x) - thickness / 2`, whatever its radius, center and phase |
| Sdf.GearSdf | src/sdf.rs:43-96 | the gear's distance is at least the slab term `abs(x) - thickness/2`, at least `min(ring, teeth)`, and equal to one of the two |
| Sdf.GearOutsideSlab | src/sdf.rs:92-93 | no point with `abs(x) > thickness/2` is inside a gear |
| Sdf.SecondGearToothAtOrigin | src/sdf.rs:71-93 | as written, the second gear of the scene counts the point `(0, 2.2, 0)` as inside, while the same gear placed relative to its center has it outside (see Findings) |
| Sdf.SecondGearPointOutside | src/sdf.rs:43-96 | relative to its center, the second gear has `(0, 2.2, 0)` outside: the point is beyond both the ring and the tooth tips |
| Sdf.TeethBeyondTips | src/sdf.rs:78-88 | the teeth of a gear of radius 2 and thickness 0.4 reach no farther than `sqrt(7.38)`, about 2.72, from the axis; the teeth term is positive at any folded point beyond that |
| Sdf.FoldOnAxis | src/sdf.rs:59-75 | at time 0 the fold fixes every point on the positive y axis |
| Sdf.TeethAtToothCenter | src/sdf.rs:78-88 | at the middle of the tooth the teeth term is `-3 thickness / 4` |
| Sdf.GearInsideAtTooth | src/sdf.rs:78-93 | where the fold fixes the middle of the tooth, the gear's distance there is negative |
| Sdf.CenteredGearSdf | src/sdf.rs:43-96 | the corrected gear is at least the slab term taken relative to its center |
| Sdf.CenteredGearTranslation | src/sdf.rs:43-96 | moving the corrected gear and the point by the same offset leaves the distance unchanged |
| Sdf.CenteredGearAtOrigin | src/sdf.rs:43-96 | for a gear at the origin the correction changes nothing |
| Sdf.CenteredGearRimInside | src/sdf.rs:50-54 | wherever the corrected gear is centered, the point of its ring's middle circle above the center is inside it |
| Marching.MissIsFinal | src/renderer.rs:51-60 | once a sample ends the loop without a hit (budget spent or sample past the cut-off), no hit exists at any step |
| Marching.SphereTrace | src/renderer.rs:43-61 | the tracer samples between 1 and `maxSteps` times. It returns `Some(p)` exactly when the last sample is below 0.1 and exactly when some sample before the loop ends is; `p` is the traced point. A `None` means the budget ran out or the last sample reached the cut-off. A hit at the origin returns the origin after one sample. The result is the reference march `Marching.Trace` |
| Marching.ShadowTGrows | src/renderer.rs:74-84 | along a clear shadow ray, `t` grows by at least the epsilon per step |
| Marching.ClearToEndIsLit | src/renderer.rs:77-86 | a shadow ray clear until `t` reaches the end is not occluded |
| Marching.ShadowBudgetDecreases | src/renderer.rs:77-84 | each non-returning step lowers a non-negative integer measure, so the shadow loop ends |
| Marching.ShadowStopMeaning | src/renderer.rs:77-86 | from a clear prefix, the shadow walk ends occluded exactly when some sample before `t` reaches the end is below the epsilon; otherwise it ends at a sample where `t` reached the end with every sample clear |
| Shading.Clamp01 | src/renderer.rs:92 | `min(1).max(0)` lands in `[0, 1]` and is the identity there |
| Shading.SpecularTerm | src/renderer.rs:89-93 | the specular term lies in `[0, 1]`; it is `-(n . l)` when that is in range, 0 when the normal faces away from the light (the light lies along `-light`), and 1 for the NaN normal |
| Shading.Brightness | src/renderer.rs:63-70 | the brightness lies in `[0.1, 1]` for terms in `[0, 1]`; with no diffuse light it is at most 0.37; with some it exceeds 0.1 |
| Shading.BrightnessMonotone | src/renderer.rs:66-69 | more diffuse or specular light never darkens the point |
| Shading.GlyphIndexInRange | src/renderer.rs:36 | a brightness in `[0, 1]` indexes inside the palette; brightness 0 (a miss) picks the last glyph and 1 picks the first |
| Shading.GlyphIndexOfLitPoint | src/renderer.rs:36 | a brightness of at least 0.1 never picks the last glyph |
| Shading.GlyphIndexMonotone | src/renderer.rs:36 | a brighter point never picks a later glyph |
| Renderer.RayMarch | src/renderer.rs:43-61 | at most 10 samples. A hit is reported exactly when the normalised ray hits within the budget, and its point has `abs(sdf) < 0.1`. A hit at the origin returns the origin. The result is the reference march `Marching.Trace` of the normalised ray |
| Renderer.Penumbra | src/renderer.rs:73-82 | the running minimum never exceeds 1 |
| Renderer.PenumbraPositive | src/renderer.rs:78-82 | along a clear shadow ray the penumbra stays positive |
| Renderer.DiffuseLighting | src/renderer.rs:72-87 | the result is 0 exactly when some sample below 0.001 is met before `t` reaches 1. Otherwise it is the positive penumbra of a shadow ray clear to the end, in `(0, 1]`. It equals `Renderer.ShadowFactor`: 0 when `Marching.ShadowStop` ends occluded, else the penumbra up to the sample where it ends |
| Renderer.NormalIsUnit | src/renderer.rs:95-109 | the normal exists exactly when some forward difference is nonzero, and then it has unit length |
| Renderer.SpecularLighting | src/renderer.rs:89-93 | the specular term of the scene lies in `[0, 1]` |
| Renderer.LightPoint | src/renderer.rs:63-70 | the brightness of a hit point is `0.1 + 0.9 (0.7 d + 0.3 s)`, with `d` the point's shadow factor and `s` its specular term. It lies in `[0.1, 1]`, is at most 0.37 in shadow and is above 0.1 when the point is lit |
| Renderer.ShadePixel | src/renderer.rs:29-36 | the glyph is `palette[((1 - b) (len - 1)) as usize]`. Here `b` is the brightness `Renderer.LightPoint` gives the point where the reference march stops, or 0 when it misses. So the glyph is in the palette, a miss gets the last glyph, and a hit gets an earlier one when the palette has two or more |
| Renderer.Render | src/renderer.rs:17-41 | `height as usize` rows of `width as usize` glyphs; glyph `j` of row `i` is the one `Renderer.ShadePixel` states for the ray `rays(i, j)` |
| Renderer.BlankIffMiss | src/renderer.rs:31-36 | over the standard palette, a pixel is blank exactly when its ray misses |
| Camera.Softmin | src/camera.rs:43-47 | for `k > 0` the result is at most `min(a, b)` and at least `min(a, b) - k/4`; once the operands are `k` apart it is exactly `min(a, b)` |
| Camera.SoftminWeight | src/camera.rs:45-46 | the blend weight vanishes once the operands are `k` apart, and the dip lies in `[0, k/4]` for `k > 0` |
| Camera.SoftminSymmetric | src/camera.rs:43-47 | `softmin` is symmetric in its operands |
| Camera.SdGear | src/camera.rs:61-90 | the camera's gear is at least its slab term |
| Camera.SdGearAboveTeeth | src/camera.rs:61-90 | the camera's gear is at least the minimum of `-thickness/2` and its teeth term |
| Camera.SdGearIsGearAtRest | src/camera.rs:61-90 | `sd_gear` is the `Gear::sdf` of `src/sdf.rs` at time 0, whatever the turn rate |
| Camera.SceneOnAxis | src/camera.rs:61-93 | on the x axis the camera's scene is `abs(x) - 0.3`, inside for `abs(x) < 0.3` |
| Camera.SceneIsThin | src/camera.rs:91-93 | no point farther than 0.3 from the plane `x = 0` is inside the scene |
| Camera.RayMarching | src/camera.rs:153-171 | at most 30 samples from `origin`; a hit is reported exactly when the normalised ray hits the scene within the budget, at a point with `abs(sdf) < 0.1`. The result is the reference march `Marching.Trace` of the normalised ray |
| Camera.Candidate | src/camera.rs:189-191 | a penumbra candidate that is a number is non-negative when `sqrt` is |
| Camera.Penumbra | src/camera.rs:179-193 | the running minimum never exceeds 1 |
| Camera.PenumbraNonNegative | src/camera.rs:179-193 | the penumbra is never negative when `sqrt` is not |
| Camera.SoftShadow | src/camera.rs:178-197 | the result is 0 when some sample below 0.001 is met before `t` reaches 7. Otherwise it is the penumbra of a shadow ray clear to the end. It never exceeds 1, and it equals `Camera.ShadowFactor`, the shadow term at the sample where `Marching.ShadowStop` ends |
| Camera.DiffuseLighting | src/camera.rs:178-197 | the shadow loop against the camera's light: 0 when occluded, otherwise the penumbra of a ray clear to the end; it equals `Camera.ShadowFactor` |
| Camera.SpecularLighting | src/camera.rs:199-203 | the specular term lies in `[0, 1]` |
| Camera.SpecularOfFlatGradient | src/camera.rs:139-151 | where all central differences vanish, the NaN normal gives full specular light |
| Camera.LightPoint | src/camera.rs:173-176 | the brightness is `0.1 + 0.9 (0.7 d + 0.3 s)`, with `d` the point's shadow factor and `s` its specular term. It is at most 1, at least 0.1 when `sqrt` is non-negative, and in `[0.1, 0.37]` in shadow |
| Camera.ShadeCell | src/camera.rs:124-134 | the glyph is `palette.chars().nth(((1 - b) (len - 1)) as usize)`. Here `b` is the brightness `Camera.LightPoint` gives the point where the reference march stops, or 0 on a miss. `nth` finds it because the palette's byte length is its glyph count. The glyph is in the palette, and it is blank exactly when the ray misses |
| Camera.FillGrid | src/camera.rs:117-136 | the grid has 30 rows of 90 glyphs, and cell `(i, j)` holds the glyph `Camera.ShadeCell` states for the ray `rays(i, j)` |
| Camera.Render | src/camera.rs:102-137 | the same for the one-gear scene of `Camera::sdf` and the standard palette |
| Buffer.FromHeight | src/buffer.rs:9-17 | the buffer keeps `height`, has width `height * aspect_ratio`, and uses the standard palette |
| Buffer.PaletteShape | src/buffer.rs:13 | the palette has 69 ASCII glyphs. It starts with `$` and ends with the blank, which appears nowhere else |
| Buffer.Utf8Length | src/camera.rs:133 | a string's UTF-8 length lies between its glyph count and four times that |
| Buffer.AsciiUtf8Length | src/camera.rs:103 | byte length equals glyph count exactly when the string is ASCII |
| Buffer.Nth | src/camera.rs:131-134 | `chars().nth(n)` finds a glyph exactly when `n` is below the glyph count, and that glyph is in the string |
| Screen.FromScreenPosition | src/screen.rs:19-34 | a fresh iterator keeps the screen corner and edges and has width 0, height 0 and index 0; `next` may not be called on it, since its `%` by the zero width panics, until a buffer size is set |
| Screen.SetBufferSize | src/screen.rs:35-41 | the cell counts are the truncated buffer sizes, each step taken width (or height) times spans its edge, and nothing else changes |
| Screen.Next | src/screen.rs:46-60 | while cells remain, `next` yields the point of the current cell and advances the index by one. Once exhausted it yields `None` and changes nothing |
| Screen.CollectYieldsRemaining | src/screen.rs:44-61 | the iterator yields exactly the remaining cells, the k-th item being the point of cell `index + k` |
| Screen.PixelInBounds | src/screen.rs:47-50 | every yielded cell number gives a column below the width and a row below the height |
| Screen.RowMajor | src/screen.rs:47-48 | cell `y * width + x` is column `x` of row `y` |
| Screen.ScreenScan | src/screen.rs:47-55 | a fresh iterator yields `width * height` items in row-major order. Item `y * width + x` is `corner + x * h_step + y * v_step`, and the first item is the corner |
| Screen.IteratorCoversBuffer | src/screen.rs:35-41 | the iterator of a `from_height` buffer yields one item per cell of that buffer |

## Left out

- `src/main.rs` is not part of this model. It holds the ncurses loop, key handling, timing and camera movement. It also comes from a different revision than the renderer files, so it is only cited for the scene it builds.
- Terminal output is not modelled: `addstr` and the `Display` implementations.
- f32 rounding and overflow are not modelled: scalars are reals. NaN is modelled only where `f32::min` or `f32::max` turns it into a definite result, namely the flat normal, the penumbra candidates and the angle `atan(0/0)` of a point on the gear's axis. There `Sdf.PointAngle` gives `None`, `Sdf.Fold` gives `NanYZ`, and the box is `Sdf.NanBoxSdf`.
- Ray directions are not computed; `Renderer.Render` and `Camera.Render` take a `rays(i, j)` parameter. Left out with them:
  - the camera's projection through `Matrix3` and `tan` (src/camera.rs:95-122);
  - the renderer's `ray_dir +=` accumulation (src/renderer.rs:18-38);
  - the drift of `ray_dir` when the buffer width is not a whole number.
- usize overflow of `buffer_width * buffer_height` and the saturation of `as usize` at `usize::MAX` are not modelled.
- The accuracy of the finite-difference normals, and whether sphere tracing converges to the true surface, are not modelled.
- Renderer.RayMarch: requires a direction of nonzero length. A zero direction normalises to NaNs in the source. The first sample, at the origin, is still taken, and a hit there returns the origin. Every later point is then a vector of NaNs, and what the scene's distance function makes of such a point is not modelled.
- Camera.RayMarching: requires a direction of nonzero length, for the same reason.
- Screen.SetBufferSize: requires nonzero buffer sizes, because a zero size makes the steps infinite.
- Screen.Next: requires a nonzero width, because the source's `%` panics on zero.
- Renderer.Render: requires a non-empty palette, because `palette.len() - 1` underflows on an empty one.
- Camera.ShadeCell: requires `sqrt` to be non-negative, which keeps the brightness at least 0 so that the index stays in range.
- Camera.FillGrid: requires `sqrt` to be non-negative and the palette to be ASCII with the blank last.
- Camera.Render: requires `sqrt` to be non-negative.
- Camera.LightPoint: its lower bound holds only when `sqrt` is non-negative.
- Camera.SoftShadow: promises only `<= 1` when lit. A lit ray can still give 0 through a zero square root, so "0 exactly when occluded" does not hold as it does in `Renderer`.
- The camera fields `direction`, `up`, `angle`, `distance`, `aspect_ratio`, `speed`, `turn_rate`, `time` and `brightness` are carried but unused: they only feed the projection or nothing at all.
- `softmin` is modelled on its own: no distance function of the source uses it.
- Concurrency is not modelled: the `Send + Sync` bound on `Object` states no behaviour.

## Findings

| source | as written | input that shows it | evidently intended | confidence | as-written member | corrected member |
|---|---|---|---|---|---|---|
| src/sdf.rs:71-93 | `Gear::sdf` uses `self.center` only for the ring. The teeth are built around the x axis through the origin, and the slab ignores `center.x` | the second gear of the scene: center `(0, 4.9, -0.65)`, radius 2, thickness 0.4, turn rate -30. At time 0 and point `(0, 2.2, 0)` the distance is negative. Yet the point is about 2.78 from the gear's axis, beyond the ring's outer edge at 2.1 and beyond the tooth tips at about 2.71, so the gear placed relative to its center has it outside | the whole gear, teeth and slab included, is placed relative to its center | likely; not executed | Sdf.SecondGearToothAtOrigin | Sdf.CenteredGearSdf |

`Sdf.ObjectSdf` is `Object::sdf` as written and sends a gear to `Sdf.GearSdf`. `Sdf.IntendedObjectSdf` sends it to `Sdf.CenteredGearSdf` instead. For spheres, boxes and gears at the origin the two agree (`Sdf.IntendedObjectSdfAgrees`, `Sdf.CenteredGearAtOrigin`). Moving the gear moves the whole shape (`Sdf.CenteredGearTranslation`), and its rim is inside it wherever it is centered (`Sdf.CenteredGearRimInside`).

=== FILE: buffer.dfy ===
/** The character buffer of `src/buffer.rs`: its size in cells (kept as
    floats by the source) and the palette of glyphs from densest to blank.
    `src/camera.rs` spells out the same palette again as a `String`, whose
    `len()` counts UTF-8 bytes rather than characters; the byte length is
    modelled here too.
 */
module Buffer {
  import opened Numeric

  datatype Buffer = Buffer(width: real, height: real, palette: seq<char>)

  /** The glyphs from the densest, `$`, to the blank, ` `: the one string
      literal of the source, written here in pieces of ten glyphs. */
  const Palette: string :=
    "$@B%8&WM#o" + "ahkbdpqwmZ" + "O0QLCJUYXz" + "cvunxrjft/" + "\\|()1{}[]?" + "-_+~<>i!lI" + ";:,\"^`'." + " "

  /** `Buffer::from_height`: a buffer `height` cells tall and
      `height * aspect_ratio` cells wide over the standard palette. */
  function FromHeight(height: real, aspectRatio: real): (b: Buffer)
    ensures b.height == height
    ensures b.width == height * aspectRatio
    ensures b.palette == Palette
  {
    Buffer(height * aspectRatio, height, Palette)
  }

  predicate IsAscii(s: string) {
    forall i :: 0 <= i < |s| ==> (s[i] as int) < 0x80
  }

  /** ASCII glyphs none of which is the blank. */
  predicate Inked(s: string) {
    forall i :: 0 <= i < |s| ==> (s[i] as int) < 0x80 && s[i] != ' '
  }

  lemma InkedAppend(a: string, b: string)
    requires Inked(a) && Inked(b)
    ensures Inked(a + b)
  {
    forall i | 0 <= i < |a + b|
      ensures ((a + b)[i] as int) < 0x80 && (a + b)[i] != ' '
    {
      if i < |a| {
        assert (a + b)[i] == a[i];
      } else {
        assert (a + b)[i] == b[i - |a|];
      }
    }
  }

  /** The palette has 69 glyphs, all ASCII; it starts with the densest glyph
      and ends with the blank, which appears nowhere else. */
  lemma PaletteShape()
    ensures |Palette| == 69
    ensures Palette[0] == '$'
    ensures Palette[|Palette| - 1] == ' '
    ensures IsAscii(Palette)
    ensures forall i :: 0 <= i < |Palette| - 1 ==> Palette[i] != ' '
  {
    var a, b, c, d := "$@B%8&WM#o", "ahkbdpqwmZ", "O0QLCJUYXz", "cvunxrjft/";
    var e, f, g := "\\|()1{}[]?", "-_+~<>i!lI", ";:,\"^`'.";
    assert Inked(a) && Inked(b) && Inked(c) && Inked(d) && Inked(e) && Inked(f) && Inked(g);
    InkedAppend(a, b);
    InkedAppend(a + b, c);
    InkedAppend(a + b + c, d);
    InkedAppend(a + b + c + d, e);
    InkedAppend(a + b + c + d + e, f);
    InkedAppend(a + b + c + d + e + f, g);
    var inked := a + b + c + d + e + f + g;
    assert Palette == inked + " ";
    assert Palette[0] == a[0];
    forall i | 0 <= i < |Palette|
      ensures (Palette[i] as int) < 0x80
      ensures i < |Palette| - 1 ==> Palette[i] != ' '
    {
      if i < |inked| {
        assert Palette[i] == inked[i];
      }
    }
  }

  /** The number of bytes UTF-8 needs for one character. */
  function Utf8Width(c: char): (n: nat)
    ensures 1 <= n <= 4
    ensures n == 1 <==> (c as int) < 0x80
  {
    if (c as int) < 0x80 then 1
    else if (c as int) < 0x800 then 2
    else if (c as int) < 0x1_0000 then 3
    else 4
  }

  /** `String::len`: the length of the UTF-8 encoding, in bytes. */
  function Utf8Length(s: string): (n: nat)
    ensures |s| <= n <= 4 * |s|
  {
    if |s| == 0 then 0 else Utf8Width(s[0]) + Utf8Length(s[1..])
  }

  /** Byte length and character count agree exactly on ASCII text. */
  lemma {:induction false} AsciiUtf8Length(s: string)
    ensures Utf8Length(s) == |s| <==> IsAscii(s)
  {
    if |s| != 0 {
      AsciiUtf8Length(s[1..]);
      assert IsAscii(s) <==> (s[0] as int) < 0x80 && IsAscii(s[1..]) by {
        if IsAscii(s) {
          forall i | 0 <= i < |s[1..]|
            ensures (s[1..][i] as int) < 0x80
          {
            assert s[1..][i] == s[i + 1];
          }
        }
        if (s[0] as int) < 0x80 && IsAscii(s[1..]) {
          forall i | 0 <= i < |s|
            ensures (s[i] as int) < 0x80
          {
            if 0 < i {
              assert s[i] == s[1..][i - 1];
            }
          }
        }
      }
      assert |s[1..]| <= Utf8Length(s[1..]);
    }
  }

  /** `chars().nth(n)`: the n-th character, if there is one. */
  function Nth(s: string, n: nat): (r: Option<char>)
    ensures r.Some? <==> n < |s|
    ensures r.Some? ==> r.value in s
  {
    if n < |s| then Some(s[n]) else None
  }
}

=== FILE: camera.dfy ===
/** `Camera` of `src/camera.rs`: a second renderer over a fixed scene, one
    gear at the origin. It repeats the sphere tracer with other constants,
    softens shadows with a penumbra estimate that remembers the previous
    sample, and fills a fixed 30 x 90 buffer through `chars().nth(..)` of
    the palette string. `sd_sphere` and `sd_box` are the formulas of
    `Sdf.SphereSdf` and `Sdf.BoxSdf`; `softmin` is defined but used by no
    distance function.
 */
module Camera {
  import opened Numeric
  import opened Vectors
  import opened Marching
  import opened Shading
  import Sdf
  import Buffer

  const Height: nat := 30
  const Width: nat := Height * 3

  /** The camera state. The ray-direction fields (`direction`, `up`,
      `angle`, `distance`, `aspectRatio`) only feed the screen projection,
      which is not modelled; `grid` is the character buffer. */
  datatype Camera = Camera(
    time: real,
    position: Vector,
    direction: Vector,
    up: Vector,
    light: Vector,
    angle: real,
    distance: real,
    brightness: real,
    aspectRatio: real,
    grid: seq<seq<char>>,
    speed: real,
    turnRate: real)

  // ------------------------------------------------------------- softmin

  /** `softmin`: the polynomial smooth minimum of sharpness `k`. Within `k`
      of each other the operands blend and the result dips below both by at
      most `k / 4`; farther apart it is the plain minimum. */
  function Softmin(left: real, right: real, k: real): (r: real)
    requires k != 0.0
    ensures 0.0 < k ==> r <= Min(left, right)
    ensures 0.0 < k ==> Min(left, right) - k / 4.0 <= r
    ensures k <= Abs(left - right) ==> r == Min(left, right)
  {
    var h := Max(k - Abs(left - right), 0.0) / k;
    SoftminWeight(left, right, k);
    Min(left, right) - h * h * k * (1.0 / 4.0)
  }

  /** The blend weight `h` is 0 once the operands are `k` apart (and always
      for a negative `k`), and otherwise lies in `[0, 1]`, so that the dip
      `h * h * k / 4` lies in `[0, k / 4]`. */
  lemma SoftminWeight(left: real, right: real, k: real)
    requires k != 0.0
    ensures var h := Max(k - Abs(left - right), 0.0) / k;
      && (k <= Abs(left - right) ==> h == 0.0)
      && (0.0 < k ==> 0.0 <= h * h * k * (1.0 / 4.0) <= k / 4.0)
  {
    var h := Max(k - Abs(left - right), 0.0) / k;
    if 0.0 < k {
      var num := Max(k - Abs(left - right), 0.0);
      assert 0.0 <= num <= k;
      assert h * k == num;
      if h < 0.0 {
        PositiveProduct(-h, k);
      }
      if 1.0 < h {
        PositiveProduct(h - 1.0, k);
      }
      SoftminDip(h, k);
    }
  }

  /** For a blend weight `h` in `[0, 1]` the dip `h * h * k / 4` lies in
      `[0, k / 4]`. */
  lemma SoftminDip(h: real, k: real)
    requires 0.0 < k
    requires 0.0 <= h <= 1.0
    ensures 0.0 <= h * h * k * (1.0 / 4.0) <= k / 4.0
  {
    var hh := Square(h);
    SquareNonNegative(h);
    assert hh <= 1.0 by {
      if 0.0 < h && h < 1.0 {
        PositiveProduct(h, 1.0 - h);
        assert Product(h, 1.0 - h) == h - hh;
      }
    }
    if 0.0 < hh {
      PositiveProduct(hh, k);
    }
    assert hh * k <= k by {
      if hh < 1.0 {
        PositiveProduct(1.0 - hh, k);
        assert Product(1.0 - hh, k) == k - hh * k;
      }
    }
  }

  /** `softmin` does not depend on the order of its operands. */
  lemma SoftminSymmetric(left: real, right: real, k: real)
    requires k != 0.0
    ensures Softmin(left, right, k) == Softmin(right, left, k)
  {
    assert Abs(left - right) == Abs(right - left);
  }

  // ---------------------------------------------------------------- gear

  /** `sd_gear`: the gear of `src/sdf.rs` without the rotation in time. */
  function SdGear(m: Math, point: Vector, center: Vector, radius: real, thickness: real): (r: real)
    ensures Sdf.Slab(thickness, point) <= r
  {
    var ring := Sdf.Ring(m, center, radius, thickness, point);
    var teeth := Sdf.Teeth(m, radius, thickness, Sdf.Fold(m, point));
    Max(Min(ring, teeth), Sdf.Slab(thickness, point))
  }

  /** The ring is never below `-thickness / 2`, so the gear is never below
      the smaller of that and its teeth term. */
  lemma SdGearAboveTeeth(m: Math, point: Vector, center: Vector, radius: real, thickness: real)
    ensures Min(-thickness / 2.0, Sdf.Teeth(m, radius, thickness, Sdf.Fold(m, point))) <= SdGear(m, point, center, radius, thickness)
  {
  }

  /** The camera's gear is the gear of `src/sdf.rs` at time zero, whatever
      its turn rate: at time zero the time rotation is the identity. */
  lemma SdGearIsGearAtRest(m: Math, point: Vector, center: Vector, radius: real, thickness: real, turnRate: real)
    requires Lawful(m)
    requires turnRate != 0.0
    ensures SdGear(m, point, center, radius, thickness)
         == Sdf.GearSdf(m, Sdf.Gear(center, radius, thickness, turnRate), point, 0.0)
  {
    assert Sdf.GearPhase(turnRate, 0.0) == 0.0;
    RotateXByZero(m, point);
  }

  /** The scene of `Camera::sdf`: a gear of radius 3 and thickness 0.6 at the
      origin. */
  function Scene(m: Math): Vector -> real {
    p => SdGear(m, p, Zero(), 3.0, 0.6)
  }

  /** On the x axis, where the angle of the fold is NaN, the scene is the
      slab alone: inside exactly for `|x| < 0.3`. */
  lemma SceneOnAxis(m: Math, x: real)
    requires Lawful(m)
    ensures Scene(m)(Vector(x, 0.0, 0.0)) == Abs(x) - 0.3
  {
    SdGearIsGearAtRest(m, Vector(x, 0.0, 0.0), Zero(), 3.0, 0.6, 1.0);
    Sdf.GearOnAxis(m, Sdf.Gear(Zero(), 3.0, 0.6, 1.0), x, 0.0);
  }

  /** No point farther than 0.3 from the plane `x = 0` is inside the scene. */
  lemma SceneIsThin(m: Math, point: Vector)
    requires 0.3 < Abs(point.x)
    ensures 0.0 < Scene(m)(point)
  {
  }

  // ------------------------------------------------------------ marching

  const MaxDistance: real := 10.0
  const MaxSteps: nat := 30

  /** `ray_marching`: the sphere tracer from `origin` with at most 30
      samples and the cut-off at 10. */
  method RayMarching(m: Math, sdf: Vector -> real, origin: Vector, direction: Vector) returns (hit: Option<Vector>, evaluations: nat)
    requires Magnitude(m, direction) != 0.0
    ensures 1 <= evaluations <= MaxSteps
    ensures hit.Some? ==> Abs(sdf(hit.value)) < HitThreshold
    ensures hit.Some? <==> Hits(sdf, Normalized(m, direction), origin, MaxDistance, MaxSteps)
    ensures hit == Trace(sdf, Normalized(m, direction), origin, MaxDistance, MaxSteps, 0)
  {
    hit, evaluations := SphereTrace(sdf, Normalized(m, direction), origin, MaxDistance, MaxSteps);
  }

  // ------------------------------------------------------------- diffuse

  const ShadowStart: real := 0.001
  const ShadowEnd: real := 7.0
  const Sharpness: real := 4.0
  /** The initial "previous sample", `1e20`. */
  const FarSample: real := 100_000_000_000_000_000_000.0

  /** One penumbra candidate `k * d / max(t - y, 0)` with
      `y = h * h / (2 * ph)` and `d = sqrt(h * h - y * y)`, where `h` is the
      sample and `ph` the previous one. Whenever the float expression is NaN
      or infinite (a zero `ph`, a negative radicand, a zero denominator)
      `f32::min` ignores it; those cases are `None`. */
  function Candidate(m: Math, h: real, t: real, ph: real): (c: Option<real>)
    ensures SqrtNonNegative(m) && c.Some? ==> 0.0 <= c.value
  {
    if ph == 0.0 then None
    else
      var y := Square(h) / (2.0 * ph);
      var radicand := Square(h) - Square(y);
      var denominator := Max(t - y, 0.0);
      if radicand < 0.0 || denominator == 0.0 then None
      else Some(Sharpness * m.sqrt(radicand) / denominator)
  }

  /** The previous sample seen by the i-th step of the shadow ray. */
  function PreviousSample(sdf: Vector -> real, point: Vector, light: Vector, i: nat): real {
    if i == 0 then FarSample else ShadowSample(sdf, point, light, ShadowStart, i - 1)
  }

  /** The value of `res` after the first `n` shadow samples: the minimum of
      `1.0` and every candidate that is a number. */
  function Penumbra(m: Math, sdf: Vector -> real, point: Vector, light: Vector, n: nat): (r: real)
    ensures r <= 1.0
  {
    if n == 0 then 1.0
    else
      var prev := Penumbra(m, sdf, point, light, n - 1);
      var c := Candidate(m, ShadowSample(sdf, point, light, ShadowStart, n - 1),
                         ShadowT(sdf, point, light, ShadowStart, n - 1),
                         PreviousSample(sdf, point, light, n - 1));
      if c.Some? then Min(prev, c.value) else prev
  }

  /** With a square root that is never negative the penumbra is never
      negative either. */
  lemma {:induction false} PenumbraNonNegative(m: Math, sdf: Vector -> real, point: Vector, light: Vector, n: nat)
    requires SqrtNonNegative(m)
    ensures 0.0 <= Penumbra(m, sdf, point, light, n)
  {
    if n > 0 {
      PenumbraNonNegative(m, sdf, point, light, n - 1);
    }
  }

  /** The value the shadow loop settles on: 0 when the light is blocked,
      otherwise the penumbra at the sample where `t` ran out. */
  function ShadowFactor(m: Math, sdf: Vector -> real, point: Vector, light: Vector): real {
    match ShadowStop(sdf, point, light, ShadowStart, ShadowEnd, 0)
    case None => 0.0
    case Some(n) => Penumbra(m, sdf, point, light, n)
  }

  /** The shadow loop of `diffuse_lighting` over any distance function:
      walk from `t = 0.001` while `t < 7` against `light`; 0 as soon as a
      sample falls below the occlusion epsilon, otherwise the penumbra of
      all samples taken. */
  method SoftShadow(m: Math, sdf: Vector -> real, point: Vector, light: Vector) returns (r: real)
    ensures Occluded(sdf, point, light, ShadowStart, ShadowEnd) ==> r == 0.0
    ensures r <= 1.0
    ensures !Occluded(sdf, point, light, ShadowStart, ShadowEnd) ==>
      exists n: nat :: LitAt(sdf, point, light, ShadowStart, ShadowEnd, n) && r == Penumbra(m, sdf, point, light, n)
    ensures r == ShadowFactor(m, sdf, point, light)
  {
    var res := 1.0;
    var ph := FarSample;
    var t := ShadowStart;
    ghost var i: nat := 0;
    while t < ShadowEnd
      invariant t == ShadowT(sdf, point, light, ShadowStart, i)
      invariant ph == PreviousSample(sdf, point, light, i)
      invariant Clear(sdf, point, light, ShadowStart, ShadowEnd, i)
      invariant res == Penumbra(m, sdf, point, light, i)
      invariant ShadowStop(sdf, point, light, ShadowStart, ShadowEnd, 0) == ShadowStop(sdf, point, light, ShadowStart, ShadowEnd, i)
      decreases ShadowBudget(t, ShadowEnd)
    {
      var h := sdf(Sub(point, Scale(light, t)));
      if h < OcclusionEpsilon {
        assert OccludedAt(sdf, point, light, ShadowStart, ShadowEnd, i);
        return 0.0;
      }
      var c := Candidate(m, h, t, ph);
      if c.Some? {
        res := Min(res, c.value);
      }
      ClearStep(sdf, point, light, ShadowStart, ShadowEnd, i);
      ShadowBudgetDecreases(t, h, ShadowEnd);
      t := t + h;
      ph := h;
      i := i + 1;
    }
    ClearToEndIsLit(sdf, point, light, ShadowStart, ShadowEnd, i);
    r := res;
  }

  /** `diffuse_lighting`: the shadow loop over the camera's scene, against
      `self.light`. */
  method DiffuseLighting(m: Math, cam: Camera, sdf: Vector -> real, point: Vector) returns (r: real)
    ensures Occluded(sdf, point, cam.light, ShadowStart, ShadowEnd) ==> r == 0.0
    ensures r <= 1.0
    ensures !Occluded(sdf, point, cam.light, ShadowStart, ShadowEnd) ==>
      exists n: nat :: LitAt(sdf, point, cam.light, ShadowStart, ShadowEnd, n)
                    && r == Penumbra(m, sdf, point, cam.light, n)
    ensures r == ShadowFactor(m, sdf, point, cam.light)
  {
    r := SoftShadow(m, sdf, point, cam.light);
  }

  // ------------------------------------------------------------ lighting

  const NormalStep: real := 0.001

  /** The central differences of `normal`, divided by twice the step. */
  function Gradient(sdf: Vector -> real, point: Vector): Vector {
    Div(Vector(sdf(Add(point, Vector(NormalStep, 0.0, 0.0))) - sdf(Sub(point, Vector(NormalStep, 0.0, 0.0))),
               sdf(Add(point, Vector(0.0, NormalStep, 0.0))) - sdf(Sub(point, Vector(0.0, NormalStep, 0.0))),
               sdf(Add(point, Vector(0.0, 0.0, NormalStep))) - sdf(Sub(point, Vector(0.0, 0.0, NormalStep)))),
        2.0 * NormalStep)
  }

  /** `specular_lighting`: the clamped `-(normal . light)` with the
      normalised gradient as normal. */
  function SpecularLighting(m: Math, cam: Camera, sdf: Vector -> real, point: Vector): (r: real)
    ensures 0.0 <= r <= 1.0
  {
    SpecularTerm(TryNormalize(m, Gradient(sdf, point)), cam.light)
  }

  /** Where the distance is flat the normal is the NaN vector, and the
      clamp turns it into full specular light. */
  lemma SpecularOfFlatGradient(m: Math, cam: Camera, sdf: Vector -> real, point: Vector)
    requires Lawful(m)
    requires Gradient(sdf, point) == Zero()
    ensures SpecularLighting(m, cam, sdf, point) == 1.0
  {
    SqrtOfZero(m);
  }

  /** `light_point`: the ambient share plus the weighted diffuse and
      specular terms; at most 1, and at least the ambient share when the
      square root is never negative. */
  method LightPoint(m: Math, cam: Camera, sdf: Vector -> real, point: Vector) returns (r: real)
    ensures r == Brightness(ShadowFactor(m, sdf, point, cam.light), SpecularLighting(m, cam, sdf, point))
    ensures r <= 1.0
    ensures SqrtNonNegative(m) ==> Ambient <= r
    ensures Occluded(sdf, point, cam.light, ShadowStart, ShadowEnd) ==> Ambient <= r <= Ambient + (1.0 - Ambient) * 0.3
  {
    var diffuse := DiffuseLighting(m, cam, sdf, point);
    if SqrtNonNegative(m) && !Occluded(sdf, point, cam.light, ShadowStart, ShadowEnd) {
      var n: nat :| LitAt(sdf, point, cam.light, ShadowStart, ShadowEnd, n)
                  && diffuse == Penumbra(m, sdf, point, cam.light, n);
      PenumbraNonNegative(m, sdf, point, cam.light, n);
    }
    r := Brightness(diffuse, SpecularLighting(m, cam, sdf, point));
  }

  // -------------------------------------------------------------- render

  /** A palette as `render` needs it: ASCII, so that its byte length is its
      glyph count, with two glyphs or more, the blank last and nowhere else. */
  ghost predicate BlankLast(palette: string) {
    && 2 <= |palette|
    && Buffer.IsAscii(palette)
    && palette[|palette| - 1] == ' '
    && (forall i :: 0 <= i < |palette| - 1 ==> palette[i] != ' ')
  }

  /** The brightness of a cell: 0 when its ray misses, otherwise the
      brightness of the point where the march stopped. */
  function CellBrightness(m: Math, cam: Camera, sdf: Vector -> real, direction: Vector): real
    requires Magnitude(m, direction) != 0.0
  {
    match Trace(sdf, Normalized(m, direction), cam.position, MaxDistance, MaxSteps, 0)
    case None => 0.0
    case Some(p) => Brightness(ShadowFactor(m, sdf, p, cam.light), SpecularLighting(m, cam, sdf, p))
  }

  /** What the glyph of one cell says about its ray: a character of the
      palette, the one the cell's brightness selects,
      `nth(((1 - brightness) * (len - 1)) as usize)` with `len` the
      palette's byte count; and the blank exactly when the ray misses. */
  ghost predicate CellShows(m: Math, cam: Camera, sdf: Vector -> real, palette: string, direction: Vector, glyph: char)
    requires Magnitude(m, direction) != 0.0
  {
    && glyph in palette
    && 1 <= Buffer.Utf8Length(palette)
    && Buffer.Nth(palette, GlyphIndex(CellBrightness(m, cam, sdf, direction), Buffer.Utf8Length(palette))) == Some(glyph)
    && (glyph == ' ' <==> !Hits(sdf, Normalized(m, direction), cam.position, MaxDistance, MaxSteps))
  }

  /** One cell of `render`: march, light a hit (a miss has brightness 0),
      and take the glyph `nth(((1 - brightness) * (len - 1)) as usize)` of
      the palette, where `len` counts the palette's bytes. The `unwrap`
      cannot fail: the palette is ASCII, so its byte count is its glyph
      count and the index is in range. */
  method ShadeCell(m: Math, cam: Camera, sdf: Vector -> real, palette: string, direction: Vector) returns (glyph: char)
    requires SqrtNonNegative(m)
    requires BlankLast(palette)
    requires Magnitude(m, direction) != 0.0
    ensures CellShows(m, cam, sdf, palette, direction, glyph)
  {
    var hit, _ := RayMarching(m, sdf, cam.position, direction);
    var brightness := 0.0;
    if hit.Some? {
      brightness := LightPoint(m, cam, sdf, hit.value);
    }
    Buffer.AsciiUtf8Length(palette);
    var len := Buffer.Utf8Length(palette);
    GlyphIndexInRange(brightness, len);
    var i := GlyphIndex(brightness, len);
    if hit.Some? {
      GlyphIndexOfLitPoint(brightness, len);
    }
    var c := Buffer.Nth(palette, i);
    glyph := c.value;
    assert brightness == CellBrightness(m, cam, sdf, direction);
  }

  /** Each of the first `|row|` cells of row `i` shows its ray. */
  ghost predicate RowShows(m: Math, cam: Camera, sdf: Vector -> real, palette: string, rays: (nat, nat) -> Vector, i: nat, row: seq<char>)
    requires forall j: nat :: j < |row| ==> Magnitude(m, rays(i, j)) != 0.0
  {
    forall j :: 0 <= j < |row| ==> CellShows(m, cam, sdf, palette, rays(i, j), row[j])
  }

  /** A cell that shows its ray extends a row that does. */
  lemma RowShowsAppend(m: Math, cam: Camera, sdf: Vector -> real, palette: string, rays: (nat, nat) -> Vector, i: nat, row: seq<char>, glyph: char)
    requires forall j: nat :: j <= |row| ==> Magnitude(m, rays(i, j)) != 0.0
    requires RowShows(m, cam, sdf, palette, rays, i, row)
    requires CellShows(m, cam, sdf, palette, rays(i, |row|), glyph)
    ensures RowShows(m, cam, sdf, palette, rays, i, row + [glyph])
  {
    forall j | 0 <= j < |row| + 1
      ensures CellShows(m, cam, sdf, palette, rays(i, j), (row + [glyph])[j])
    {
      if j < |row| {
        assert (row + [glyph])[j] == row[j];
      }
    }
  }

  /** Each of the first `|grid|` rows shows its rays. */
  ghost predicate GridShows(m: Math, cam: Camera, sdf: Vector -> real, palette: string, rays: (nat, nat) -> Vector, grid: seq<seq<char>>)
    requires forall i: nat, j: nat :: i < |grid| && j < |grid[i]| ==> Magnitude(m, rays(i, j)) != 0.0
  {
    forall i: nat :: i < |grid| ==> RowShows(m, cam, sdf, palette, rays, i, grid[i])
  }

  /** A row that shows its rays extends a grid that does. */
  lemma GridShowsAppend(m: Math, cam: Camera, sdf: Vector -> real, palette: string, rays: (nat, nat) -> Vector, grid: seq<seq<char>>, row: seq<char>)
    requires forall i: nat, j: nat :: i < |grid| && j < |grid[i]| ==> Magnitude(m, rays(i, j)) != 0.0
    requires forall j: nat :: j < |row| ==> Magnitude(m, rays(|grid|, j)) != 0.0
    requires GridShows(m, cam, sdf, palette, rays, grid)
    requires RowShows(m, cam, sdf, palette, rays, |grid|, row)
    ensures GridShows(m, cam, sdf, palette, rays, grid + [row])
  {
    forall i: nat | i < |grid| + 1
      ensures RowShows(m, cam, sdf, palette, rays, i, (grid + [row])[i])
    {
      if i < |grid| {
        assert (grid + [row])[i] == grid[i];
      }
    }
  }

  /** The two loops of `render` over a palette as it needs one: every row
      has `Width` cells, each showing its ray. */
  method FillGrid(m: Math, cam: Camera, sdf: Vector -> real, palette: string, rays: (nat, nat) -> Vector) returns (grid: seq<seq<char>>)
    requires SqrtNonNegative(m)
    requires BlankLast(palette)
    requires forall i: nat, j: nat :: i < Height && j < Width ==> Magnitude(m, rays(i, j)) != 0.0
    ensures |grid| == Height
    ensures forall i :: 0 <= i < Height ==> |grid[i]| == Width
    ensures GridShows(m, cam, sdf, palette, rays, grid)
  {
    grid := [];
    while |grid| < Height
      invariant |grid| <= Height
      invariant forall i :: 0 <= i < |grid| ==> |grid[i]| == Width
      invariant GridShows(m, cam, sdf, palette, rays, grid)
    {
      var row := FillRow(m, cam, sdf, palette, rays, |grid|);
      GridShowsAppend(m, cam, sdf, palette, rays, grid, row);
      grid := grid + [row];
    }
  }

  /** The inner loop of `render`: the cells of row `i`, in column order. */
  method FillRow(m: Math, cam: Camera, sdf: Vector -> real, palette: string, rays: (nat, nat) -> Vector, i: nat) returns (row: seq<char>)
    requires SqrtNonNegative(m)
    requires BlankLast(palette)
    requires forall j: nat :: j < Width ==> Magnitude(m, rays(i, j)) != 0.0
    ensures |row| == Width
    ensures RowShows(m, cam, sdf, palette, rays, i, row)
  {
    row := [];
    while |row| < Width
      invariant |row| <= Width
      invariant RowShows(m, cam, sdf, palette, rays, i, row)
    {
      var glyph := ShadeCell(m, cam, sdf, palette, rays(i, |row|));
      RowShowsAppend(m, cam, sdf, palette, rays, i, row, glyph);
      row := row + [glyph];
    }
  }

  /** `render`: every cell of the `Height x Width` buffer gets a glyph of
      the palette, the cell at row `i` and column `j` along `rays(i, j)`,
      which stands for the projection of the unit square through the
      camera; the cell is blank exactly when its ray misses the gear. */
  method Render(m: Math, cam: Camera, rays: (nat, nat) -> Vector) returns (grid: seq<seq<char>>)
    requires SqrtNonNegative(m)
    requires forall i: nat, j: nat :: i < Height && j < Width ==> Magnitude(m, rays(i, j)) != 0.0
    ensures |grid| == Height
    ensures forall i :: 0 <= i < Height ==> |grid[i]| == Width
    ensures GridShows(m, cam, Scene(m), Buffer.Palette, rays, grid)
  {
    Buffer.PaletteShape();
    grid := FillGrid(m, cam, Scene(m), Buffer.Palette, rays);
  }
}

=== FILE: marching.dfy ===
/** Sphere tracing, shared by `Renderer::ray_march` (src/renderer.rs) and
    `Camera::ray_marching` (src/camera.rs), which differ only in their
    constants; and the sample sequence of the two soft-shadow loops
    (`diffuse_lighting`).

    The scene's distance function is an opaque `Vector -> real`. The point
    sequence the tracer walks is given by a reference function,
    `TracePoint`, so that the loops can be specified against it.
 */
module Marching {
  import opened Numeric
  import opened Vectors

  /** Both tracers report a hit once `|sdf(point)| < 0.1`. */
  const HitThreshold: real := 0.1

  // ------------------------------------------------------- sphere tracing

  /** The k-th point of the march: start at `origin` and step along `ray`
      by the distance sampled at the current point. */
  function TracePoint(sdf: Vector -> real, ray: Vector, origin: Vector, k: nat): Vector {
    if k == 0 then origin
    else
      var p := TracePoint(sdf, ray, origin, k - 1);
      Add(p, Scale(ray, sdf(p)))
  }

  /** The distance sampled at the k-th point. */
  function Sample(sdf: Vector -> real, ray: Vector, origin: Vector, k: nat): real {
    sdf(TracePoint(sdf, ray, origin, k))
  }

  /** None of the first `k` samples was a hit, and each was below the
      cut-off that ends the march. */
  ghost predicate Survives(sdf: Vector -> real, ray: Vector, origin: Vector, maxDist: real, k: nat) {
    forall j :: 0 <= j < k ==>
      HitThreshold <= Abs(Sample(sdf, ray, origin, j)) && Sample(sdf, ray, origin, j) < maxDist
  }

  /** The march reaches its k-th sample within the step budget, and that
      sample is a hit. */
  ghost predicate HitsAt(sdf: Vector -> real, ray: Vector, origin: Vector, maxDist: real, maxSteps: nat, k: nat) {
    k < maxSteps && Survives(sdf, ray, origin, maxDist, k) && Abs(Sample(sdf, ray, origin, k)) < HitThreshold
  }

  ghost predicate Hits(sdf: Vector -> real, ray: Vector, origin: Vector, maxDist: real, maxSteps: nat) {
    exists k: nat :: HitsAt(sdf, ray, origin, maxDist, maxSteps, k)
  }

  /** A march that stopped without a hit, on its step budget or on a sample
      beyond the cut-off, has no hit at any later step either. */
  lemma MissIsFinal(sdf: Vector -> real, ray: Vector, origin: Vector, maxDist: real, maxSteps: nat, e: nat)
    requires 1 <= e <= maxSteps
    requires Survives(sdf, ray, origin, maxDist, e - 1)
    requires HitThreshold <= Abs(Sample(sdf, ray, origin, e - 1))
    requires e == maxSteps || maxDist <= Sample(sdf, ray, origin, e - 1)
    ensures !Hits(sdf, ray, origin, maxDist, maxSteps)
  {
    forall k: nat
      ensures !HitsAt(sdf, ray, origin, maxDist, maxSteps, k)
    {
      if k < e - 1 {
        assert HitThreshold <= Abs(Sample(sdf, ray, origin, k));
      } else if e - 1 < k < maxSteps {
        assert maxDist <= Sample(sdf, ray, origin, e - 1);
        assert !Survives(sdf, ray, origin, maxDist, k);
      }
    }
  }

  /** What the march returns when it starts its k-th sample: the hit point
      at the first sample below the threshold, and `None` once the step
      budget is spent or a sample reaches the cut-off. */
  function Trace(sdf: Vector -> real, ray: Vector, origin: Vector, maxDist: real, maxSteps: nat, k: nat): Option<Vector>
    decreases maxSteps - k
  {
    if maxSteps <= k then None
    else if Abs(Sample(sdf, ray, origin, k)) < HitThreshold then Some(TracePoint(sdf, ray, origin, k))
    else if maxDist <= Sample(sdf, ray, origin, k) then None
    else Trace(sdf, ray, origin, maxDist, maxSteps, k + 1)
  }

  /** The marching loop: while the last sample is below `maxDist` and fewer
      than `maxSteps` samples were taken, sample the distance at the current
      point, stop with a hit when it is below the threshold, and otherwise
      step along `ray` by that distance. `evaluations` counts the calls of
      `sdf`. The cut-off looks at the last sample, not at the distance
      travelled. */
  method SphereTrace(sdf: Vector -> real, ray: Vector, origin: Vector, maxDist: real, maxSteps: nat)
    returns (hit: Option<Vector>, evaluations: nat)
    requires 0 < maxSteps && 0.0 < maxDist
    ensures 1 <= evaluations <= maxSteps
    ensures Survives(sdf, ray, origin, maxDist, evaluations - 1)
    ensures hit.Some? <==> Abs(Sample(sdf, ray, origin, evaluations - 1)) < HitThreshold
    ensures hit.Some? ==> hit.value == TracePoint(sdf, ray, origin, evaluations - 1)
    ensures hit.None? ==> evaluations == maxSteps || maxDist <= Sample(sdf, ray, origin, evaluations - 1)
    ensures hit.Some? <==> Hits(sdf, ray, origin, maxDist, maxSteps)
    ensures Abs(sdf(origin)) < HitThreshold ==> hit == Some(origin) && evaluations == 1
    ensures hit == Trace(sdf, ray, origin, maxDist, maxSteps, 0)
  {
    var point := origin;
    var dist := 0.0;
    var count: nat := 0;
    while dist < maxDist && count < maxSteps
      invariant count <= maxSteps
      invariant point == TracePoint(sdf, ray, origin, count)
      invariant count == 0 ==> dist == 0.0
      invariant 0 < count ==> dist == Sample(sdf, ray, origin, count - 1)
      invariant 0 < count ==> HitThreshold <= Abs(dist)
      invariant 0 < count ==> Survives(sdf, ray, origin, maxDist, count - 1)
      invariant 0 < count ==> HitThreshold <= Abs(Sample(sdf, ray, origin, 0))
      invariant 0 < count && maxDist <= dist ==> Trace(sdf, ray, origin, maxDist, maxSteps, 0) == None
      invariant !(0 < count && maxDist <= dist) ==>
        Trace(sdf, ray, origin, maxDist, maxSteps, 0) == Trace(sdf, ray, origin, maxDist, maxSteps, count)
      decreases maxSteps - count
    {
      count := count + 1;
      dist := sdf(point);
      if Abs(dist) < HitThreshold {
        assert HitsAt(sdf, ray, origin, maxDist, maxSteps, count - 1);
        return Some(point), count;
      }
      point := Add(point, Scale(ray, dist));
    }
    MissIsFinal(sdf, ray, origin, maxDist, maxSteps, count);
    return None, count;
  }

  // ------------------------------------------------------------ shadow ray

  /** A shadow sample below this distance means the light is blocked. */
  const OcclusionEpsilon: real := 0.001

  /** The ray parameter of the i-th shadow sample: it starts at `t0` and
      grows by the distance sampled at each step. */
  function ShadowT(sdf: Vector -> real, point: Vector, light: Vector, t0: real, i: nat): real {
    if i == 0 then t0
    else
      var t := ShadowT(sdf, point, light, t0, i - 1);
      t + sdf(Sub(point, Scale(light, t)))
  }

  /** The distance sampled at the i-th step of the shadow ray, which runs
      from `point` against the light direction. */
  function ShadowSample(sdf: Vector -> real, point: Vector, light: Vector, t0: real, i: nat): real {
    sdf(Sub(point, Scale(light, ShadowT(sdf, point, light, t0, i))))
  }

  /** The first `i` samples were taken (their `t` was below `tMax`) and none
      of them blocked the light. */
  ghost predicate Clear(sdf: Vector -> real, point: Vector, light: Vector, t0: real, tMax: real, i: nat) {
    forall j :: 0 <= j < i ==>
      ShadowT(sdf, point, light, t0, j) < tMax && OcclusionEpsilon <= ShadowSample(sdf, point, light, t0, j)
  }

  /** A sample taken below `tMax` that clears extends the clear prefix. */
  lemma ClearStep(sdf: Vector -> real, point: Vector, light: Vector, t0: real, tMax: real, i: nat)
    requires Clear(sdf, point, light, t0, tMax, i)
    requires ShadowT(sdf, point, light, t0, i) < tMax
    requires OcclusionEpsilon <= ShadowSample(sdf, point, light, t0, i)
    ensures Clear(sdf, point, light, t0, tMax, i + 1)
  {
  }

  ghost predicate OccludedAt(sdf: Vector -> real, point: Vector, light: Vector, t0: real, tMax: real, i: nat) {
    && Clear(sdf, point, light, t0, tMax, i)
    && ShadowT(sdf, point, light, t0, i) < tMax
    && ShadowSample(sdf, point, light, t0, i) < OcclusionEpsilon
  }

  /** Some sample below the occlusion epsilon is met before `t` reaches
      `tMax`. */
  ghost predicate Occluded(sdf: Vector -> real, point: Vector, light: Vector, t0: real, tMax: real) {
    exists i: nat :: OccludedAt(sdf, point, light, t0, tMax, i)
  }

  /** The shadow ray ran out at sample `n`: every earlier sample cleared,
      and `t` has reached `tMax`. */
  ghost predicate LitAt(sdf: Vector -> real, point: Vector, light: Vector, t0: real, tMax: real, n: nat) {
    Clear(sdf, point, light, t0, tMax, n) && tMax <= ShadowT(sdf, point, light, t0, n)
  }

  /** Along a clear prefix the ray parameter never falls below its start:
      every step adds a sample of at least the occlusion epsilon. */
  lemma {:induction false} ShadowTGrows(sdf: Vector -> real, point: Vector, light: Vector, t0: real, tMax: real, n: nat)
    requires Clear(sdf, point, light, t0, tMax, n)
    ensures t0 + (n as real) * OcclusionEpsilon <= ShadowT(sdf, point, light, t0, n)
  {
    if n > 0 {
      assert Clear(sdf, point, light, t0, tMax, n - 1);
      ShadowTGrows(sdf, point, light, t0, tMax, n - 1);
      assert OcclusionEpsilon <= ShadowSample(sdf, point, light, t0, n - 1);
    }
  }

  /** A shadow ray whose samples all cleared until `t` reached `tMax` is not
      occluded. */
  lemma ClearToEndIsLit(sdf: Vector -> real, point: Vector, light: Vector, t0: real, tMax: real, n: nat)
    requires LitAt(sdf, point, light, t0, tMax, n)
    ensures !Occluded(sdf, point, light, t0, tMax)
  {
    forall i: nat
      ensures !OccludedAt(sdf, point, light, t0, tMax, i)
    {
      if i < n {
        assert OcclusionEpsilon <= ShadowSample(sdf, point, light, t0, i);
      } else if n < i {
        assert !Clear(sdf, point, light, t0, tMax, i);
      }
    }
  }

  /** Where the shadow loop stops, from its i-th sample on: `Some(n)` when
      `t` reaches `tMax` at sample `n` with every sample clear, `None` when
      a sample below the occlusion epsilon blocks the light first. */
  function ShadowStop(sdf: Vector -> real, point: Vector, light: Vector, t0: real, tMax: real, i: nat): Option<nat>
    decreases ShadowBudget(ShadowT(sdf, point, light, t0, i), tMax)
  {
    var t := ShadowT(sdf, point, light, t0, i);
    if tMax <= t then Some(i)
    else if ShadowSample(sdf, point, light, t0, i) < OcclusionEpsilon then None
    else
      ShadowBudgetDecreases(t, ShadowSample(sdf, point, light, t0, i), tMax);
      ShadowStop(sdf, point, light, t0, tMax, i + 1)
  }

  /** From a clear prefix, the stop is `None` exactly when the ray is
      occluded, and `Some(n)` names the sample where it ran out lit. */
  lemma {:induction false} ShadowStopMeaning(sdf: Vector -> real, point: Vector, light: Vector, t0: real, tMax: real, i: nat)
    requires Clear(sdf, point, light, t0, tMax, i)
    ensures ShadowStop(sdf, point, light, t0, tMax, i).None? <==> Occluded(sdf, point, light, t0, tMax)
    ensures ShadowStop(sdf, point, light, t0, tMax, i).Some? ==>
      LitAt(sdf, point, light, t0, tMax, ShadowStop(sdf, point, light, t0, tMax, i).value)
    decreases ShadowBudget(ShadowT(sdf, point, light, t0, i), tMax)
  {
    var t := ShadowT(sdf, point, light, t0, i);
    var h := ShadowSample(sdf, point, light, t0, i);
    if tMax <= t {
      ClearToEndIsLit(sdf, point, light, t0, tMax, i);
    } else if h < OcclusionEpsilon {
      assert OccludedAt(sdf, point, light, t0, tMax, i);
    } else {
      ShadowBudgetDecreases(t, h, tMax);
      ClearStep(sdf, point, light, t0, tMax, i);
      ShadowStopMeaning(sdf, point, light, t0, tMax, i + 1);
    }
  }

  /** The integer measure that bounds the shadow loop: each unblocked step
      advances `t` by at least the occlusion epsilon, so this drops by at
      least one. */
  function ShadowBudget(t: real, tMax: real): int {
    ((tMax - t) / OcclusionEpsilon).Floor
  }

  lemma ShadowBudgetDecreases(t: real, h: real, tMax: real)
    requires t < tMax && OcclusionEpsilon <= h
    ensures 0 <= ShadowBudget(t, tMax)
    ensures ShadowBudget(t + h, tMax) < ShadowBudget(t, tMax)
  {
    var a, b := (tMax - t) / OcclusionEpsilon, (tMax - (t + h)) / OcclusionEpsilon;
    assert b <= a - 1.0;
  }
}

=== FILE: numeric.dfy ===
/** Scalar helpers shared by the whole renderer.

    The renderer computes in `f32`; this model computes in `real`. The few
    transcendental functions the code takes from the Rust standard library
    (`sqrt`, `sin`, `cos`, `atan`) have no closed form over the reals, so
    they travel as fields of a `Math` record and are constrained only by the
    laws in `Lawful`. The exact operations (`abs`, `min`, `max`, `round`,
    the `as usize` cast) are defined here outright.
 */
module Numeric {

  datatype Option<+T> = None | Some(value: T)

  /** The transcendental functions of `f32`, left uninterpreted. */
  datatype Math = Math(sqrt: real -> real, sin: real -> real, cos: real -> real, atan: real -> real)

  /** The only facts about the transcendental functions any proof relies on.
      The sign facts of `sqrt` follow from its squaring back, but are stated
      outright so that they can be used without nonlinear arithmetic. */
  ghost predicate Lawful(m: Math) {
    && SqrtNonNegative(m)
    && SqrtSign(m)
    && (forall x :: 0.0 <= x ==> Square(m.sqrt(x)) == x)
    && (forall a :: Square(m.sin(a)) + Square(m.cos(a)) == 1.0)
    && m.sin(0.0) == 0.0
    && m.cos(0.0) == 1.0
    && m.atan(0.0) == 0.0
  }

  /** The one law of `sqrt` that the range proofs of the lighting need. */
  ghost predicate SqrtNonNegative(m: Math) {
    forall x :: 0.0 <= x ==> 0.0 <= m.sqrt(x)
  }

  /** `sqrt` is zero at zero and positive on positive numbers. */
  ghost predicate SqrtSign(m: Math) {
    && m.sqrt(0.0) == 0.0
    && (forall x :: 0.0 < x ==> 0.0 < m.sqrt(x))
  }

  /** The sign laws agree with the squaring law: a square root that squares
      back and is never negative is zero exactly at zero. */
  lemma {:induction false} SqrtSignFromSquares(m: Math)
    requires SqrtNonNegative(m)
    requires forall x :: 0.0 <= x ==> Square(m.sqrt(x)) == x
    ensures SqrtSign(m)
  {
    var s := m.sqrt(0.0);
    if s != 0.0 {
      assert Square(s) == 0.0;
      SquarePositive(s);
    }
    forall x | 0.0 < x
      ensures 0.0 < m.sqrt(x)
    {
      assert Square(m.sqrt(x)) == x;
    }
  }

  /** `std::f32::consts::PI`, written out at its exact single-precision value. */
  const Pi: real := 3.1415927410125732421875

  function Abs(x: real): real {
    if x < 0.0 then -x else x
  }

  /** `f32::min` on operands that are not NaN. */
  function Min(a: real, b: real): real {
    if a <= b then a else b
  }

  /** `f32::max` on operands that are not NaN. */
  function Max(a: real, b: real): real {
    if a <= b then b else a
  }

  /** `f32::round`: nearest integer, halfway cases away from zero. */
  function Round(x: real): (r: int)
    ensures x - 0.5 <= r as real <= x + 0.5
    ensures 0.0 <= x ==> x - 0.5 < r as real
    ensures x < 0.0 ==> (r as real) < x + 0.5
  {
    if 0.0 <= x then (x + 0.5).Floor else -((0.5 - x).Floor)
  }

  /** The Rust cast `x as usize` from a float: truncation toward zero, with
      every negative value saturating to 0 (the saturation at `usize::MAX` is
      out of reach of the values the renderer casts). */
  function AsUsize(x: real): (r: nat)
    ensures x <= 0.0 ==> r == 0
    ensures 0.0 <= x ==> r as real <= x < r as real + 1.0
  {
    if x <= 0.0 then 0 else x.Floor
  }

  /** Squares and products are kept behind functions: the solver reasons
      about them reliably only through the lemmas below. */
  function Square(a: real): real {
    a * a
  }

  function Product(a: real, b: real): real {
    a * b
  }

  lemma PositiveProduct(a: real, b: real)
    requires 0.0 < a && 0.0 < b
    ensures 0.0 < Product(a, b)
  {
  }

  lemma SquarePositive(a: real)
    requires a != 0.0
    ensures 0.0 < Square(a)
  {
    if 0.0 < a {
      PositiveProduct(a, a);
    } else {
      PositiveProduct(-a, -a);
    }
  }

  lemma SquareNonNegative(a: real)
    ensures 0.0 <= Square(a)
  {
    if a != 0.0 {
      SquarePositive(a);
    }
  }

  /** Under the sign laws, a square root of a non-negative number is
      positive exactly when the number is. */
  lemma SqrtSignOf(m: Math, x: real)
    ensures SqrtNonNegative(m) && 0.0 <= x ==> 0.0 <= m.sqrt(x)
    ensures SqrtSign(m) && 0.0 <= x ==> (0.0 < m.sqrt(x) <==> 0.0 < x)
  {
  }

  lemma SqrtOfZero(m: Math)
    requires Lawful(m)
    ensures m.sqrt(0.0) == 0.0
  {
  }

  lemma SqrtOfPositive(m: Math, x: real)
    requires Lawful(m)
    requires 0.0 < x
    ensures 0.0 < m.sqrt(x)
  {
  }

  lemma SquareMonotone(a: real, b: real)
    requires 0.0 <= a < b
    ensures Square(a) < Square(b)
  {
    PositiveProduct(b - a, b + a);
    assert Product(b - a, b + a) == Square(b) - Square(a);
  }

  /** A number no larger in size than `c` has a square no larger than `c`'s. */
  lemma SquareBelow(t: real, c: real)
    requires Abs(t) <= c
    ensures Square(t) <= Square(c)
  {
    assert Square(t) == Square(Abs(t));
    if Abs(t) < c {
      SquareMonotone(Abs(t), c);
    }
  }

  /** The square root of a number above `a²` is above `a`. */
  lemma SqrtAbove(m: Math, x: real, a: real)
    requires Lawful(m)
    requires 0.0 <= a && Square(a) < x
    ensures a < m.sqrt(x)
  {
    SquareNonNegative(a);
    var s := m.sqrt(x);
    assert 0.0 <= s && Square(s) == x;
    if s < a {
      SquareMonotone(s, a);
    }
  }

  /** The square root undoes squaring on non-negative numbers. */
  lemma SqrtOfSquare(m: Math, a: real)
    requires Lawful(m)
    requires 0.0 <= a
    ensures m.sqrt(Square(a)) == a
  {
    SquareNonNegative(a);
    var s := m.sqrt(Square(a));
    assert 0.0 <= s && Square(s) == Square(a);
    if s < a {
      SquareMonotone(s, a);
    } else if a < s {
      SquareMonotone(a, s);
    }
  }

  lemma RoundOdd(x: real)
    ensures Round(-x) == -Round(x)
  {
  }

  lemma AsUsizeMonotone(a: real, b: real)
    requires a <= b
    ensures AsUsize(a) <= AsUsize(b)
  {
  }
}

=== FILE: renderer.dfy ===
/** `Renderer` of `src/renderer.rs`: the sphere tracer, the soft-shadow
    diffuse term, the specular term and the brightness of a hit point, and
    the glyph each pixel of the buffer receives. The scene is any distance
    function `sdf`; the ray of each pixel is a parameter (see `Render`).
 */
module Renderer {
  import opened Numeric
  import opened Vectors
  import opened Marching
  import opened Shading
  import Buffer

  /** The march stops once a sample reaches this distance... */
  const MaxDistance: real := 8.0
  /** ...or after this many samples. */
  const MaxSteps: nat := 10

  /** The shadow ray starts this far from the point... */
  const ShadowStart: real := 0.1
  /** ...and is followed until `t` reaches this far. */
  const ShadowEnd: real := 1.0
  /** The penumbra sharpness `k`. */
  const Sharpness: real := 4.0

  /** The fixed light direction of `light_point`. */
  const Light: Vector := Vector(1.0, 1.0, -1.0)

  /** The step of the forward differences in `normal`. */
  const NormalStep: real := 0.001

  /** `ray_march`: sphere tracing along the normalised direction, at most
      ten samples, stopping on a sample beyond 8. A direction of zero length
      normalises to NaNs and is excluded. */
  method RayMarch(m: Math, origin: Vector, direction: Vector, sdf: Vector -> real)
    returns (hit: Option<Vector>, evaluations: nat)
    requires Magnitude(m, direction) != 0.0
    ensures 1 <= evaluations <= MaxSteps
    ensures hit.Some? ==> Abs(sdf(hit.value)) < HitThreshold
    ensures hit.Some? <==> Hits(sdf, Normalized(m, direction), origin, MaxDistance, MaxSteps)
    ensures Abs(sdf(origin)) < HitThreshold ==> hit == Some(origin) && evaluations == 1
    ensures hit == Trace(sdf, Normalized(m, direction), origin, MaxDistance, MaxSteps, 0)
  {
    hit, evaluations := SphereTrace(sdf, Normalized(m, direction), origin, MaxDistance, MaxSteps);
  }

  // ------------------------------------------------------------ diffuse

  /** The value of `res` after the first `n` shadow samples: the minimum of
      `1.0` and every `k * h / t`. The loop never divides by a zero `t`: it
      starts at 0.1 and returns before `t` can grow by a sample below the
      occlusion epsilon (`ShadowTGrows`). The zero case keeps `prev` only to
      make the function total. */
  function Penumbra(sdf: Vector -> real, point: Vector, light: Vector, n: nat): (r: real)
    ensures r <= 1.0
  {
    if n == 0 then 1.0
    else
      var prev := Penumbra(sdf, point, light, n - 1);
      var t := ShadowT(sdf, point, light, ShadowStart, n - 1);
      if t == 0.0 then prev
      else Min(prev, Sharpness * ShadowSample(sdf, point, light, ShadowStart, n - 1) / t)
  }

  /** Along a clear shadow ray the penumbra stays positive: every sample and
      every `t` is positive. */
  lemma {:induction false} PenumbraPositive(sdf: Vector -> real, point: Vector, light: Vector, tMax: real, n: nat)
    requires Clear(sdf, point, light, ShadowStart, tMax, n)
    ensures 0.0 < Penumbra(sdf, point, light, n)
  {
    if n > 0 {
      assert Clear(sdf, point, light, ShadowStart, tMax, n - 1);
      PenumbraPositive(sdf, point, light, tMax, n - 1);
      ShadowTGrows(sdf, point, light, ShadowStart, tMax, n - 1);
      var t := ShadowT(sdf, point, light, ShadowStart, n - 1);
      var h := ShadowSample(sdf, point, light, ShadowStart, n - 1);
      assert 0.0 < t && OcclusionEpsilon <= h;
      assert 0.0 < Sharpness * h / t;
    }
  }

  /** The diffuse term the shadow loop settles on: 0 when the light is
      blocked, otherwise the penumbra at the sample where `t` ran out. */
  function ShadowFactor(sdf: Vector -> real, point: Vector, light: Vector): real {
    match ShadowStop(sdf, point, light, ShadowStart, ShadowEnd, 0)
    case None => 0.0
    case Some(n) => Penumbra(sdf, point, light, n)
  }

  /** `diffuse_lighting`: walk from `point` against `light` from `t = 0.1`
      while `t < 1`; a sample below the occlusion epsilon means shadow and
      gives 0; otherwise the result is the soft-shadow penumbra, which lies
      in `(0, 1]`. The loop ends because each step advances `t` by at least
      the epsilon. */
  method DiffuseLighting(sdf: Vector -> real, point: Vector, light: Vector) returns (r: real)
    ensures r == 0.0 <==> Occluded(sdf, point, light, ShadowStart, ShadowEnd)
    ensures 0.0 <= r <= 1.0
    ensures r != 0.0 ==>
      exists n: nat :: LitAt(sdf, point, light, ShadowStart, ShadowEnd, n) && r == Penumbra(sdf, point, light, n)
    ensures r == ShadowFactor(sdf, point, light)
  {
    var res := 1.0;
    var t := ShadowStart;
    ghost var i: nat := 0;
    while t < ShadowEnd
      invariant t == ShadowT(sdf, point, light, ShadowStart, i)
      invariant ShadowStart <= t
      invariant Clear(sdf, point, light, ShadowStart, ShadowEnd, i)
      invariant res == Penumbra(sdf, point, light, i)
      invariant ShadowStop(sdf, point, light, ShadowStart, ShadowEnd, 0) == ShadowStop(sdf, point, light, ShadowStart, ShadowEnd, i)
      decreases ShadowBudget(t, ShadowEnd)
    {
      var h := sdf(Sub(point, Scale(light, t)));
      if h < OcclusionEpsilon {
        assert OccludedAt(sdf, point, light, ShadowStart, ShadowEnd, i);
        return 0.0;
      }
      res := Min(res, Sharpness * h / t);
      ClearStep(sdf, point, light, ShadowStart, ShadowEnd, i);
      ShadowBudgetDecreases(t, h, ShadowEnd);
      t := t + h;
      i := i + 1;
    }
    assert LitAt(sdf, point, light, ShadowStart, ShadowEnd, i);
    ClearToEndIsLit(sdf, point, light, ShadowStart, ShadowEnd, i);
    PenumbraPositive(sdf, point, light, ShadowEnd, i);
    r := res;
  }

  // ----------------------------------------------------------- specular

  /** `normal`: forward differences of the distance along the three axes,
      divided by the step and normalised; `None` for the NaN vector that a
      zero difference vector normalises to. */
  function Normal(m: Math, sdf: Vector -> real, point: Vector): Option<Vector> {
    TryNormalize(m, Div(Differences(sdf, point), NormalStep))
  }

  function Differences(sdf: Vector -> real, point: Vector): Vector {
    var dist := sdf(point);
    Vector(sdf(Add(point, Vector(NormalStep, 0.0, 0.0))) - dist,
           sdf(Add(point, Vector(0.0, NormalStep, 0.0))) - dist,
           sdf(Add(point, Vector(0.0, 0.0, NormalStep))) - dist)
  }

  /** The normal exists exactly when some difference is nonzero, and then it
      has unit length. */
  lemma NormalIsUnit(m: Math, sdf: Vector -> real, point: Vector)
    requires Lawful(m)
    ensures Normal(m, sdf, point).Some? <==> Differences(sdf, point) != Zero()
    ensures Normal(m, sdf, point).Some? ==> MagnitudeSquared(Normal(m, sdf, point).value) == 1.0
  {
    var v := Div(Differences(sdf, point), NormalStep);
    assert v == Zero() <==> Differences(sdf, point) == Zero();
    if v != Zero() {
      NonZeroMagnitude(m, v);
      ExactMagnitude(m, v);
      NormalizedIsUnit(m, v);
    } else {
      SqrtOfZero(m);
    }
  }

  /** `specular_lighting`: the clamped `-(normal . light)`. */
  function SpecularLighting(m: Math, sdf: Vector -> real, point: Vector, light: Vector): (r: real)
    ensures 0.0 <= r <= 1.0
  {
    SpecularTerm(Normal(m, sdf, point), light)
  }

  /** The brightness `light_point` gives a hit point: the ambient share
      plus the weighted diffuse (shadow) and specular terms. */
  function PointBrightness(m: Math, sdf: Vector -> real, point: Vector): real {
    Brightness(ShadowFactor(sdf, point, Light), SpecularLighting(m, sdf, point, Light))
  }

  /** `light_point`: the brightness of a hit point, the ambient share plus
      the weighted diffuse and specular terms; it lies between the ambient
      share and 1, a point in shadow keeps at most the ambient and the
      specular share, a lit point gets more than the ambient share. */
  method LightPoint(m: Math, sdf: Vector -> real, point: Vector) returns (r: real)
    ensures r == PointBrightness(m, sdf, point)
    ensures Ambient <= r <= 1.0
    ensures Occluded(sdf, point, Light, ShadowStart, ShadowEnd) ==> r <= Ambient + (1.0 - Ambient) * 0.3
    ensures !Occluded(sdf, point, Light, ShadowStart, ShadowEnd) ==> Ambient < r
  {
    var diffuse := DiffuseLighting(sdf, point, Light);
    r := Brightness(diffuse, SpecularLighting(m, sdf, point, Light));
  }

  // ------------------------------------------------------------ palette

  /** The brightness of a pixel: 0 when its ray misses, otherwise the
      brightness of the point where the march stopped. */
  function PixelBrightness(m: Math, origin: Vector, direction: Vector, sdf: Vector -> real): real
    requires Magnitude(m, direction) != 0.0
  {
    match Trace(sdf, Normalized(m, direction), origin, MaxDistance, MaxSteps, 0)
    case None => 0.0
    case Some(p) => PointBrightness(m, sdf, p)
  }

  /** What the glyph of one pixel says about its ray: the glyph the
      pixel's brightness selects, `((1 - brightness) * (len - 1)) as usize`;
      so the last glyph when the ray misses, and a glyph before the last
      when it hits and the palette has two glyphs or more. */
  ghost predicate ShadedAs(m: Math, palette: seq<char>, origin: Vector, direction: Vector, sdf: Vector -> real, glyph: char)
    requires 1 <= |palette| && Magnitude(m, direction) != 0.0
  {
    var hits := Hits(sdf, Normalized(m, direction), origin, MaxDistance, MaxSteps);
    var i := GlyphIndex(PixelBrightness(m, origin, direction, sdf), |palette|);
    && i < |palette| && glyph == palette[i]
    && glyph in palette
    && (!hits ==> glyph == palette[|palette| - 1])
    && (hits && 2 <= |palette| ==> glyph in palette[..|palette| - 1])
  }

  /** The body of the pixel loop of `render`: march, light a hit (a miss
      has brightness 0), and index the palette with
      `((1 - brightness) * (len - 1)) as usize`. */
  method ShadePixel(m: Math, palette: seq<char>, origin: Vector, direction: Vector, sdf: Vector -> real)
    returns (glyph: char)
    requires 1 <= |palette|
    requires Magnitude(m, direction) != 0.0
    ensures ShadedAs(m, palette, origin, direction, sdf, glyph)
  {
    var hit, _ := RayMarch(m, origin, direction, sdf);
    var brightness := 0.0;
    if hit.Some? {
      brightness := LightPoint(m, sdf, hit.value);
    }
    GlyphIndexInRange(brightness, |palette|);
    var i := GlyphIndex(brightness, |palette|);
    if hit.Some? && 2 <= |palette| {
      GlyphIndexOfLitPoint(brightness, |palette|);
      assert palette[i] == palette[..|palette| - 1][i];
    }
    glyph := palette[i];
  }

  /** Each of the first `|row|` pixels of row `i` is shaded along its ray. */
  ghost predicate RowShaded(m: Math, palette: seq<char>, origin: Vector, rays: (nat, nat) -> Vector, sdf: Vector -> real, i: nat, row: seq<char>)
    requires 1 <= |palette|
    requires forall j: nat :: j < |row| ==> Magnitude(m, rays(i, j)) != 0.0
  {
    forall j :: 0 <= j < |row| ==> ShadedAs(m, palette, origin, rays(i, j), sdf, row[j])
  }

  /** A pixel shaded along its ray extends a row that is. */
  lemma RowShadedAppend(m: Math, palette: seq<char>, origin: Vector, rays: (nat, nat) -> Vector, sdf: Vector -> real, i: nat, row: seq<char>, glyph: char)
    requires 1 <= |palette|
    requires forall j: nat :: j <= |row| ==> Magnitude(m, rays(i, j)) != 0.0
    requires RowShaded(m, palette, origin, rays, sdf, i, row)
    requires ShadedAs(m, palette, origin, rays(i, |row|), sdf, glyph)
    ensures RowShaded(m, palette, origin, rays, sdf, i, row + [glyph])
  {
    forall j | 0 <= j < |row| + 1
      ensures ShadedAs(m, palette, origin, rays(i, j), sdf, (row + [glyph])[j])
    {
      if j < |row| {
        assert (row + [glyph])[j] == row[j];
      }
    }
  }

  /** Each of the first `|rows|` rows is shaded along its rays. */
  ghost predicate RowsShaded(m: Math, palette: seq<char>, origin: Vector, rays: (nat, nat) -> Vector, sdf: Vector -> real, rows: seq<seq<char>>)
    requires 1 <= |palette|
    requires forall i: nat, j: nat :: i < |rows| && j < |rows[i]| ==> Magnitude(m, rays(i, j)) != 0.0
  {
    forall i: nat :: i < |rows| ==> RowShaded(m, palette, origin, rays, sdf, i, rows[i])
  }

  /** A row shaded along its rays extends rows that are. */
  lemma RowsShadedAppend(m: Math, palette: seq<char>, origin: Vector, rays: (nat, nat) -> Vector, sdf: Vector -> real, rows: seq<seq<char>>, row: seq<char>)
    requires 1 <= |palette|
    requires forall i: nat, j: nat :: i < |rows| && j < |rows[i]| ==> Magnitude(m, rays(i, j)) != 0.0
    requires forall j: nat :: j < |row| ==> Magnitude(m, rays(|rows|, j)) != 0.0
    requires RowsShaded(m, palette, origin, rays, sdf, rows)
    requires RowShaded(m, palette, origin, rays, sdf, |rows|, row)
    ensures RowsShaded(m, palette, origin, rays, sdf, rows + [row])
  {
    forall i: nat | i < |rows| + 1
      ensures RowShaded(m, palette, origin, rays, sdf, i, (rows + [row])[i])
    {
      if i < |rows| {
        assert (rows + [row])[i] == rows[i];
      }
    }
  }

  /** `render`: `height as usize` rows of `width as usize` glyphs, the glyph
      at row `i` and column `j` shaded along `rays(i, j)`. The rays stand
      for the source's accumulated `ray_dir`. */
  method Render(m: Math, buffer: Buffer.Buffer, origin: Vector, rays: (nat, nat) -> Vector, sdf: Vector -> real)
    returns (rows: seq<seq<char>>)
    requires 1 <= |buffer.palette|
    requires forall i: nat, j: nat :: i < AsUsize(buffer.height) && j < AsUsize(buffer.width) ==> Magnitude(m, rays(i, j)) != 0.0
    ensures |rows| == AsUsize(buffer.height)
    ensures forall i :: 0 <= i < |rows| ==> |rows[i]| == AsUsize(buffer.width)
    ensures RowsShaded(m, buffer.palette, origin, rays, sdf, rows)
  {
    var height, width := AsUsize(buffer.height), AsUsize(buffer.width);
    rows := [];
    while |rows| < height
      invariant |rows| <= height
      invariant forall i :: 0 <= i < |rows| ==> |rows[i]| == width
      invariant RowsShaded(m, buffer.palette, origin, rays, sdf, rows)
    {
      var row := RenderRow(m, buffer.palette, origin, rays, sdf, |rows|, width);
      RowsShadedAppend(m, buffer.palette, origin, rays, sdf, rows, row);
      rows := rows + [row];
    }
  }

  /** The inner loop of `render`: the `width` glyphs of row `i`, in column
      order. */
  method RenderRow(m: Math, palette: seq<char>, origin: Vector, rays: (nat, nat) -> Vector, sdf: Vector -> real, i: nat, width: nat)
    returns (row: seq<char>)
    requires 1 <= |palette|
    requires forall j: nat :: j < width ==> Magnitude(m, rays(i, j)) != 0.0
    ensures |row| == width
    ensures RowShaded(m, palette, origin, rays, sdf, i, row)
  {
    row := [];
    while |row| < width
      invariant |row| <= width
      invariant RowShaded(m, palette, origin, rays, sdf, i, row)
    {
      var glyph := ShadePixel(m, palette, origin, rays(i, |row|), sdf);
      RowShadedAppend(m, palette, origin, rays, sdf, i, row, glyph);
      row := row + [glyph];
    }
  }

  /** Over the standard palette the glyph tells hit from miss exactly: the
      blank is the last glyph and appears nowhere else. */
  lemma BlankIffMiss(m: Math, origin: Vector, direction: Vector, sdf: Vector -> real, glyph: char)
    requires Magnitude(m, direction) != 0.0
    requires ShadedAs(m, Buffer.Palette, origin, direction, sdf, glyph)
    ensures glyph == ' ' <==> !Hits(sdf, Normalized(m, direction), origin, MaxDistance, MaxSteps)
  {
    Buffer.PaletteShape();
    var p := Buffer.Palette;
    if Hits(sdf, Normalized(m, direction), origin, MaxDistance, MaxSteps) {
      var k :| 0 <= k < |p| - 1 && p[..|p| - 1][k] == glyph;
      assert p[k] == glyph;
    }
  }
}

=== FILE: screen.dfy ===
/** `ScreenIterator` of `src/screen.rs`: walks the cells of a buffer in
    row-major order and yields, for each, the point of the screen
    rectangle it looks through: the corner plus whole horizontal and
    vertical steps.
 */
module Screen {
  import opened Numeric
  import opened Vectors
  import Buffer

  datatype ScreenIterator = ScreenIterator(
    cornerPosition: Vector,
    verticalEdge: Vector,
    horizontalEdge: Vector,
    horizontalStep: Vector,
    verticalStep: Vector,
    bufferWidth: nat,
    bufferHeight: nat,
    currentIndex: nat)

  /** The number of cells, `buffer_width * buffer_height`. */
  function Cells(it: ScreenIterator): nat {
    it.bufferWidth * it.bufferHeight
  }

  /** Nothing is left to yield. */
  predicate Exhausted(it: ScreenIterator) {
    Cells(it) <= it.currentIndex
  }

  /** `from_screen_position`: the screen rectangle without a buffer yet,
      with zero steps and a zero-sized buffer. `next` may not be called
      before a buffer size is set: its `%` by the zero width panics. */
  function FromScreenPosition(corner: Vector, verticalEdge: Vector, horizontalEdge: Vector): (it: ScreenIterator)
    ensures it.cornerPosition == corner
    ensures it.verticalEdge == verticalEdge && it.horizontalEdge == horizontalEdge
    ensures it.bufferWidth == 0 && it.bufferHeight == 0 && it.currentIndex == 0
    ensures it.horizontalStep == Zero() && it.verticalStep == Zero()
    ensures Exhausted(it)
  {
    ScreenIterator(corner, verticalEdge, horizontalEdge, Zero(), Zero(), 0, 0, 0)
  }

  /** `set_buffer_size`: the cell counts are the buffer's float sizes cast
      to `usize`, and the edges are cut into steps of one cell, so that a
      step taken `width` (or `height`) times spans the edge. Nothing else
      changes. */
  function SetBufferSize(it: ScreenIterator, buffer: Buffer.Buffer): (r: ScreenIterator)
    requires buffer.width != 0.0 && buffer.height != 0.0
    ensures r.bufferWidth == AsUsize(buffer.width) && r.bufferHeight == AsUsize(buffer.height)
    ensures Scale(r.horizontalStep, buffer.width) == it.horizontalEdge
    ensures Scale(r.verticalStep, buffer.height) == it.verticalEdge
    ensures r.cornerPosition == it.cornerPosition && r.currentIndex == it.currentIndex
    ensures r.verticalEdge == it.verticalEdge && r.horizontalEdge == it.horizontalEdge
  {
    it.(bufferWidth := AsUsize(buffer.width),
        bufferHeight := AsUsize(buffer.height),
        horizontalStep := Div(it.horizontalEdge, buffer.width),
        verticalStep := Div(it.verticalEdge, buffer.height))
  }

  /** The point of the cell with row-major number `k`. */
  function Pixel(it: ScreenIterator, k: nat): Vector
    requires 0 < it.bufferWidth
  {
    Add(Add(it.cornerPosition, Scale(it.horizontalStep, (k % it.bufferWidth) as real)),
        Scale(it.verticalStep, (k / it.bufferWidth) as real))
  }

  /** `next`: while cells remain, yield the point of the current one and
      advance the index by one; afterwards yield `None` and change nothing,
      so every later call yields `None` again. A zero width would make the
      `%` panic, so it is excluded. */
  function Next(it: ScreenIterator): (r: (ScreenIterator, Option<Vector>))
    requires 0 < it.bufferWidth
    ensures r.1.Some? <==> !Exhausted(it)
    ensures r.1.Some? ==> r.0 == it.(currentIndex := it.currentIndex + 1)
    ensures r.1.Some? ==> r.1.value == Pixel(it, it.currentIndex)
    ensures r.1.None? ==> r.0 == it
  {
    if it.currentIndex < it.bufferWidth * it.bufferHeight then
      (it.(currentIndex := it.currentIndex + 1), Some(Pixel(it, it.currentIndex)))
    else
      (it, None)
  }

  /** The cells still to come. */
  function Remaining(it: ScreenIterator): nat {
    if Exhausted(it) then 0 else Cells(it) - it.currentIndex
  }

  /** Everything the iterator yields, up to the first `None`. */
  function Collect(it: ScreenIterator): seq<Vector>
    requires 0 < it.bufferWidth
    decreases Remaining(it)
  {
    var (next, item) := Next(it);
    if item.None? then [] else [item.value] + Collect(next)
  }

  /** The iterator yields exactly the remaining cells, each one's point in
      turn: the k-th item is the point of cell `currentIndex + k`. */
  lemma {:induction false} CollectYieldsRemaining(it: ScreenIterator)
    requires 0 < it.bufferWidth
    ensures |Collect(it)| == Remaining(it)
    ensures forall k :: 0 <= k < |Collect(it)| ==> Collect(it)[k] == Pixel(it, it.currentIndex + k)
    decreases Remaining(it)
  {
    var (next, item) := Next(it);
    if item.Some? {
      CollectYieldsRemaining(next);
      var rest := Collect(next);
      assert Collect(it) == [item.value] + rest;
      forall k | 0 <= k < |Collect(it)|
        ensures Collect(it)[k] == Pixel(it, it.currentIndex + k)
      {
        if 0 < k {
          assert Collect(it)[k] == rest[k - 1];
          assert Pixel(next, next.currentIndex + (k - 1)) == Pixel(it, it.currentIndex + k);
        }
      }
    }
  }

  /** Every cell number below the cell count names a column inside the
      width and a row inside the height. */
  lemma PixelInBounds(width: nat, height: nat, k: nat)
    requires 0 < width
    requires k < width * height
    ensures k % width < width
    ensures k / width < height
  {
    if height <= k / width {
      MulMonotone(height, k / width, width);
    }
  }

  /** Row-major numbering: cell `y * width + x` is column `x` of row `y`. */
  lemma RowMajor(width: nat, x: nat, y: nat)
    requires x < width
    ensures (y * width + x) / width == y
    ensures (y * width + x) % width == x
  {
    var k := y * width + x;
    var q, r := k / width, k % width;
    assert k == q * width + r;
    if q < y {
      MulMonotone(q + 1, y, width);
    } else if y < q {
      MulMonotone(y + 1, q, width);
    }
  }

  lemma MulMonotone(a: nat, b: nat, c: nat)
    requires a <= b
    ensures a * c <= b * c
  {
    assert b * c - a * c == (b - a) * c;
  }

  /** A fresh iterator given a buffer yields one point per cell, in
      row-major order: the item for column `x` of row `y` is the corner
      plus `x` horizontal and `y` vertical steps. The first item is the
      corner itself. */
  lemma ScreenScan(it: ScreenIterator, x: nat, y: nat)
    requires 0 < it.bufferWidth && it.currentIndex == 0
    requires x < it.bufferWidth && y < it.bufferHeight
    ensures |Collect(it)| == it.bufferWidth * it.bufferHeight
    ensures y * it.bufferWidth + x < |Collect(it)|
    ensures Collect(it)[y * it.bufferWidth + x]
         == Add(Add(it.cornerPosition, Scale(it.horizontalStep, x as real)), Scale(it.verticalStep, y as real))
    ensures Collect(it)[0] == it.cornerPosition
  {
    var w, h := it.bufferWidth, it.bufferHeight;
    CollectYieldsRemaining(it);
    MulMonotone(y + 1, h, w);
    assert (y + 1) * w == y * w + w;
    RowMajor(w, x, y);
    RowMajor(w, 0, 0);
  }

  /** The iterator of a buffer made by `from_height` over a screen of
      nonzero size yields one item per cell of that buffer. */
  lemma IteratorCoversBuffer(corner: Vector, verticalEdge: Vector, horizontalEdge: Vector, height: real, aspectRatio: real)
    requires 1.0 <= height && 1.0 <= height * aspectRatio
    ensures var it := SetBufferSize(FromScreenPosition(corner, verticalEdge, horizontalEdge),
                                    Buffer.FromHeight(height, aspectRatio));
      0 < it.bufferWidth && |Collect(it)| == AsUsize(height * aspectRatio) * AsUsize(height)
  {
    var it := SetBufferSize(FromScreenPosition(corner, verticalEdge, horizontalEdge),
                            Buffer.FromHeight(height, aspectRatio));
    CollectYieldsRemaining(it);
  }
}

=== FILE: sdf.dfy ===
/** The signed distance functions of `src/sdf.rs`: the `Object` trait with
    its three implementors `Sphere`, `SDBox` and `Gear`. A distance is
    negative inside a shape, zero on its surface and positive outside.
    `src/camera.rs` repeats the sphere and box formulas verbatim
    (`sd_sphere`, `sd_box`), so they are defined once, here.
 */
module Sdf {
  import opened Numeric
  import opened Vectors

  /** The implementors of the `Object` trait, as one closed variant. */
  datatype Object =
    | Sphere(center: Vector, radius: real)
    | SDBox(center: Vector, size: Vector)
    | Gear(center: Vector, radius: real, thickness: real, turnRate: real)

  /** An object whose distance is defined: the gear divides by its turn rate. */
  predicate WellFormed(o: Object) {
    o.Gear? ==> o.turnRate != 0.0
  }

  /** `Object::sdf`, dispatched on the variant, as written: the gear's
      teeth and slab ignore its center (see `SecondGearToothAtOrigin`). */
  function ObjectSdf(m: Math, o: Object, point: Vector, time: real): real
    requires WellFormed(o)
  {
    match o
    case Sphere(center, radius) => SphereSdf(m, center, radius, point)
    case SDBox(center, size) => BoxSdf(m, center, size, point)
    case Gear(_, _, _, _) => GearSdf(m, o, point, time)
  }

  /** `Object::sdf` with the gear evaluated relative to its center (see
      `CenteredGearSdf`). */
  function IntendedObjectSdf(m: Math, o: Object, point: Vector, time: real): real
    requires WellFormed(o)
  {
    if o.Gear? then CenteredGearSdf(m, o, point, time) else ObjectSdf(m, o, point, time)
  }

  /** The correction changes nothing for the sphere, the box and a gear at
      the origin. */
  lemma IntendedObjectSdfAgrees(m: Math, o: Object, point: Vector, time: real)
    requires WellFormed(o)
    requires !o.Gear? || o.center == Zero()
    ensures IntendedObjectSdf(m, o, point, time) == ObjectSdf(m, o, point, time)
  {
    if o.Gear? {
      CenteredGearAtOrigin(m, o, point, time);
    }
  }

  // ---------------------------------------------------------------- sphere

  function SphereSdf(m: Math, center: Vector, radius: real, point: Vector): real {
    Magnitude(m, Sub(point, center)) - radius
  }

  /** The sphere's distance is never below `-radius`... */
  lemma SphereSdfLowerBound(m: Math, center: Vector, radius: real, point: Vector)
    requires Lawful(m)
    ensures -radius <= SphereSdf(m, center, radius, point)
  {
    MagnitudeSquaredSign(Sub(point, center));
  }

  /** ...and reaches it at the center. */
  lemma SphereSdfAtCenter(m: Math, center: Vector, radius: real)
    requires Lawful(m)
    ensures SphereSdf(m, center, radius, center) == -radius
  {
    assert Sub(center, center) == Zero();
    SqrtOfZero(m);
  }

  // ------------------------------------------------------------------- box

  /** The offset of the point beyond the box's half-extent, per axis. */
  function BoxExcess(center: Vector, size: Vector, point: Vector): Vector {
    Sub(AbsV(Sub(center, point)), Div(size, 2.0))
  }

  function BoxSdf(m: Math, center: Vector, size: Vector, point: Vector): real {
    ExcessSdf(m, BoxExcess(center, size, point))
  }

  /** The box distance as a function of the excess vector alone. */
  function ExcessSdf(m: Math, q: Vector): real {
    OuterDistance(m, q) + Min(Max(Max(q.y, q.z), q.x), 0.0)
  }

  /** The outer term of the box distance: the length of the excess along
      the axes where the point sticks out, the square root of zero when it
      sticks out along none. */
  function OuterDistance(m: Math, q: Vector): (r: real)
    ensures q.x <= 0.0 && q.y <= 0.0 && q.z <= 0.0 ==> r == m.sqrt(0.0)
    ensures SqrtNonNegative(m) ==> 0.0 <= r
    ensures SqrtSign(m) ==> (0.0 < r <==> 0.0 < q.x || 0.0 < q.y || 0.0 < q.z)
  {
    var p := PositivePart(q);
    MagnitudeSign(m, p);
    assert q.x <= 0.0 && q.y <= 0.0 && q.z <= 0.0 <==> p == Zero();
    Magnitude(m, p)
  }

  /** Some coordinate of the point lies farther from the box center than
      half the box size along that axis. */
  predicate OutsideBox(center: Vector, size: Vector, point: Vector) {
    || Abs(center.x - point.x) > size.x / 2.0
    || Abs(center.y - point.y) > size.y / 2.0
    || Abs(center.z - point.z) > size.z / 2.0
  }

  /** The two terms of the box distance: the excess vector is nonzero
      exactly outside the box, where the inner term vanishes; inside, the
      inner term is at most zero. */
  lemma BoxTerms(center: Vector, size: Vector, point: Vector)
    ensures var q := BoxExcess(center, size, point);
      && (OutsideBox(center, size, point) <==> PositivePart(q) != Zero())
      && (OutsideBox(center, size, point) ==> Min(Max(Max(q.y, q.z), q.x), 0.0) == 0.0)
      && Min(Max(Max(q.y, q.z), q.x), 0.0) <= 0.0
  {
  }

  /** The box distance is positive exactly outside the box, and so at most
      zero exactly inside it or on its surface. */
  lemma BoxSdfSign(m: Math, center: Vector, size: Vector, point: Vector)
    requires SqrtSign(m)
    ensures 0.0 < BoxSdf(m, center, size, point) <==> OutsideBox(center, size, point)
  {
    var pp := PositivePart(BoxExcess(center, size, point));
    BoxTerms(center, size, point);
    MagnitudeSquaredSign(pp);
    SqrtSignOf(m, MagnitudeSquared(pp));
  }

  /** Inside the box only the inner term remains. */
  lemma BoxSdfInside(m: Math, center: Vector, size: Vector, point: Vector)
    requires m.sqrt(0.0) == 0.0
    requires !OutsideBox(center, size, point)
    ensures var q := BoxExcess(center, size, point);
      BoxSdf(m, center, size, point) == Min(Max(Max(q.y, q.z), q.x), 0.0)
  {
    BoxTerms(center, size, point);
  }

  /** At its own center a box with non-negative sizes is at distance minus
      half its smallest size. */
  lemma BoxSdfAtCenter(m: Math, center: Vector, size: Vector)
    requires Lawful(m)
    requires 0.0 <= size.x && 0.0 <= size.y && 0.0 <= size.z
    ensures BoxSdf(m, center, size, center) == -Min(Min(size.x, size.y), size.z) / 2.0
  {
    SqrtOfZero(m);
    BoxValueAtCenter(m, center, size);
  }

  lemma BoxValueAtCenter(m: Math, center: Vector, size: Vector)
    requires m.sqrt(0.0) == 0.0
    requires 0.0 <= size.x && 0.0 <= size.y && 0.0 <= size.z
    ensures BoxSdf(m, center, size, center) == -Min(Min(size.x, size.y), size.z) / 2.0
  {
    BoxSdfInside(m, center, size, center);
    assert BoxExcess(center, size, center) == Vector(-size.x / 2.0, -size.y / 2.0, -size.z / 2.0);
    MaxOfHalvesNegated(size);
  }

  lemma MaxOfHalvesNegated(size: Vector)
    requires 0.0 <= size.x && 0.0 <= size.y && 0.0 <= size.z
    ensures Min(Max(Max(-size.y / 2.0, -size.z / 2.0), -size.x / 2.0), 0.0)
         == -Min(Min(size.x, size.y), size.z) / 2.0
  {
  }

  /** The box distance depends only on the absolute offsets from the center,
      so reflecting the point through the center does not change it. */
  lemma BoxSdfReflection(m: Math, center: Vector, size: Vector, point: Vector)
    ensures BoxSdf(m, center, size, Sub(Scale(center, 2.0), point)) == BoxSdf(m, center, size, point)
  {
    assert BoxExcess(center, size, Sub(Scale(center, 2.0), point)) == BoxExcess(center, size, point);
  }

  /** Only the gear moves with time. */
  lemma ObjectSdfTimeInvariant(m: Math, o: Object, point: Vector, t1: real, t2: real)
    requires WellFormed(o)
    requires !o.Gear?
    ensures ObjectSdf(m, o, point, t1) == ObjectSdf(m, o, point, t2)
  {
  }

  // ------------------------------------------------------------------ gear

  /** The angle between two neighbouring teeth: twelve teeth per turn. */
  const SectorAngle: real := 2.0 * Pi / 12.0

  /** The hollow ring: distance from the cylinder around the x axis whose
      radius sits a quarter thickness inside the gear radius, made hollow. */
  function Ring(m: Math, center: Vector, radius: real, thickness: real, point: Vector): (r: real)
    ensures -thickness / 2.0 <= r
  {
    var cylinder := Magnitude(m, Sub(Vector(0.0, point.y, point.z), center)) - (radius - thickness / 4.0);
    Abs(cylinder) - thickness / 2.0
  }

  /** The ring ignores the x coordinate of the point. */
  lemma RingIgnoresX(m: Math, center: Vector, radius: real, thickness: real, point: Vector, x: real)
    ensures Ring(m, center, radius, thickness, Vector(x, point.y, point.z)) == Ring(m, center, radius, thickness, point)
  {
  }

  /** The phase of the rotating gear at `time`: one sector per `turnRate`
      time units. */
  function GearPhase(turnRate: real, time: real): real
    requires turnRate != 0.0
  {
    SectorAngle * time / turnRate
  }

  /** After `turnRate` time units the gear has advanced by exactly one
      sector. */
  lemma GearPhaseAdvance(turnRate: real, time: real)
    requires turnRate != 0.0
    ensures GearPhase(turnRate, time + turnRate) == GearPhase(turnRate, time) + SectorAngle
  {
    calc {
      GearPhase(turnRate, time + turnRate);
      SectorAngle * time / turnRate + SectorAngle * turnRate / turnRate;
      GearPhase(turnRate, time) + SectorAngle;
    }
  }

  /** `atan(z / y)` for the angle of a point around the x axis. The float
      code divides by `y` unconditionally: for `y == 0` the quotient is an
      infinity whose arctangent is a right angle of the sign of `z`; for
      `y == z == 0` it is `0 / 0`, a NaN, whose arctangent is NaN: `None`. */
  function PointAngle(m: Math, y: real, z: real): Option<real> {
    if y != 0.0 then Some(m.atan(z / y))
    else if 0.0 < z then Some(Pi / 2.0)
    else if z < 0.0 then Some(-Pi / 2.0)
    else None
  }

  /** The point the tooth box is evaluated at. A point on the x axis has a
      NaN angle; rotating it by the NaN angle of its sector gives
      `(x, NaN, NaN)`, of which only `x` is a number. */
  datatype Folded = Mapped(v: Vector) | NanYZ(x: real)

  /** The angular fold: rotate the point back by the angle of the sector
      nearest to its own angle and mirror it to non-negative `y`, so that
      one tooth serves all twelve. */
  function Fold(m: Math, point: Vector): Folded {
    match PointAngle(m, point.y, point.z)
    case None => NanYZ(point.x)
    case Some(angle) =>
      var back := RotateX(m, point, -SectorAngle * (Round(angle / SectorAngle) as real));
      Mapped(Vector(back.x, Abs(back.y), back.z))
  }

  /** The fold keeps `x` and gives a non-negative `y`; exactly the points on
      the x axis fold to the NaN point. */
  lemma FoldShape(m: Math, point: Vector)
    ensures var r := Fold(m, point);
      && (r.NanYZ? <==> point.y == 0.0 && point.z == 0.0)
      && (r.NanYZ? ==> r.x == point.x)
      && (r.Mapped? ==> r.v.x == point.x && 0.0 <= r.v.y)
  {
  }

  /** The folded point of the rotating gear: first turn the point by the
      gear's phase at `time`, then fold it. Turning keeps the x axis in
      place, so a point on it folds to the NaN point. */
  function GearFold(m: Math, turnRate: real, point: Vector, time: real): Folded
    requires turnRate != 0.0
  {
    Fold(m, RotateX(m, point, GearPhase(turnRate, time)))
  }

  /** Turning and folding keeps `x` and gives a non-negative `y`, and a point
      on the x axis folds to the NaN point. */
  lemma GearFoldShape(m: Math, turnRate: real, point: Vector, time: real)
    requires turnRate != 0.0
    ensures var r := GearFold(m, turnRate, point, time);
      && (r.NanYZ? ==> r.x == point.x)
      && (r.Mapped? ==> r.v.x == point.x && 0.0 <= r.v.y)
      && (point.y == 0.0 && point.z == 0.0 ==> r == NanYZ(point.x))
  {
    FoldShape(m, RotateX(m, point, GearPhase(turnRate, time)));
  }

  /** `SDBox::sdf` at a point whose y and z are NaN. The excess along y and
      z is NaN, and `f32::max` and `f32::min` return their other operand
      when one is NaN: the clamped excess is `(max(qx, 0), 0, 0)`, the
      clamped excess of `(qx, 0, 0)`, and the inner term is `min(qx, 0)`,
      where `qx` is the excess along x. */
  function NanBoxSdf(m: Math, center: Vector, size: Vector, x: real): real {
    AxisBoxSdf(m, Abs(center.x - x) - size.x / 2.0)
  }

  /** The box distance for an excess `qx` along x and none along y and z. */
  function AxisBoxSdf(m: Math, qx: real): real {
    OuterDistance(m, Vector(qx, 0.0, 0.0)) + Min(qx, 0.0)
  }

  /** With an excess `qx` along x alone the outer and the inner term add up
      to `qx`: the box at a NaN point, `NanBoxSdf`, is the slab
      `|center.x - x| <= size.x / 2`. */
  lemma AxisExcessBox(m: Math, qx: real)
    requires Lawful(m)
    ensures AxisBoxSdf(m, qx) == qx
  {
    if qx <= 0.0 {
      SqrtOfZero(m);
    } else {
      assert PositivePart(Vector(qx, 0.0, 0.0)) == Vector(qx, 0.0, 0.0);
      MagnitudeOnXAxis(m, qx);
    }
  }

  /** The tooth: a box on the ring's outer edge, evaluated at the folded
      point and rounded by a quarter thickness. */
  function Teeth(m: Math, radius: real, thickness: real, folded: Folded): real {
    var toothCenter := Vector(0.0, radius + thickness / 2.0, 0.0);
    var toothSize := Vector(thickness, thickness * 2.0, thickness);
    match folded
    case Mapped(v) => BoxSdf(m, toothCenter, toothSize, v) - thickness / 4.0
    case NanYZ(x) => NanBoxSdf(m, toothCenter, toothSize, x) - thickness / 4.0
  }

  /** On the x axis the teeth measure only `|x|`, three quarters of the
      thickness deep. */
  lemma TeethOnAxis(m: Math, radius: real, thickness: real, x: real)
    requires Lawful(m)
    ensures Teeth(m, radius, thickness, NanYZ(x)) == Abs(x) - thickness * 3.0 / 4.0
  {
    AxisExcessBox(m, Abs(0.0 - x) - thickness / 2.0);
  }


  /** The slice that clamps the gear to `|x| <= thickness / 2`. */
  function Slab(thickness: real, point: Vector): real {
    Abs(point.x) - thickness / 2.0
  }

  function GearSdf(m: Math, g: Object, point: Vector, time: real): (r: real)
    requires g.Gear? && g.turnRate != 0.0
    ensures Slab(g.thickness, point) <= r
    ensures Min(Ring(m, g.center, g.radius, g.thickness, point),
                Teeth(m, g.radius, g.thickness, GearFold(m, g.turnRate, point, time))) <= r
    ensures r == Slab(g.thickness, point)
         || r == Min(Ring(m, g.center, g.radius, g.thickness, point),
                     Teeth(m, g.radius, g.thickness, GearFold(m, g.turnRate, point, time)))
  {
    var ring := Ring(m, g.center, g.radius, g.thickness, point);
    var teeth := Teeth(m, g.radius, g.thickness, GearFold(m, g.turnRate, point, time));
    Max(Min(ring, teeth), Slab(g.thickness, point))
  }

  /** On the x axis the teeth lie inside the slab, so there the gear's
      distance is exactly the slab's, whatever its radius, center and
      phase: the gear is inside for `|x| < thickness / 2`. */
  lemma GearOnAxis(m: Math, g: Object, x: real, time: real)
    requires Lawful(m)
    requires g.Gear? && g.turnRate != 0.0 && 0.0 < g.thickness
    ensures GearSdf(m, g, Vector(x, 0.0, 0.0), time) == Abs(x) - g.thickness / 2.0
  {
    var p := Vector(x, 0.0, 0.0);
    GearFoldShape(m, g.turnRate, p, time);
    TeethOnAxis(m, g.radius, g.thickness, x);
    GearAtSlab(m, g, p, time);
  }

  /** Where the teeth are below the slab the gear is the slab. */
  lemma GearAtSlab(m: Math, g: Object, point: Vector, time: real)
    requires g.Gear? && g.turnRate != 0.0
    requires Teeth(m, g.radius, g.thickness, GearFold(m, g.turnRate, point, time)) < Slab(g.thickness, point)
    ensures GearSdf(m, g, point, time) == Slab(g.thickness, point)
  {
  }

  /** Outside the slab the gear's distance is at least the distance to the
      slab; in particular no point with `|x| > thickness / 2` is inside. */
  lemma GearOutsideSlab(m: Math, g: Object, point: Vector, time: real)
    requires g.Gear? && g.turnRate != 0.0
    requires g.thickness / 2.0 < Abs(point.x)
    ensures 0.0 < GearSdf(m, g, point, time)
  {
  }

  // --------------------------------------------- the gear and its center

  /** The second gear of the scene in `src/main.rs`: radius 2, thickness
      0.4, centered off the origin in the y-z plane. */
  function SecondGear(): Object {
    Gear(Vector(0.0, 4.9, -0.65), 2.0, 0.4, -30.0)
  }

  /** As written, the teeth of a gear sit around the x axis through the
      origin whatever its center: the second gear of the scene counts the
      point `(0, 2.2, 0)`, the middle of a tooth of a gear at the origin, as
      inside itself. That point is farther from the second gear's axis than
      its outer radius plus its thickness, and the same gear placed
      relative to its center has it outside. */
  lemma SecondGearToothAtOrigin(m: Math)
    requires Lawful(m)
    ensures var g := SecondGear();
      && GearSdf(m, g, Vector(0.0, 2.2, 0.0), 0.0) < 0.0
      && Square(g.radius + g.thickness) < Square(2.2 - g.center.y) + Square(0.0 - g.center.z)
      && 0.0 < CenteredGearSdf(m, g, Vector(0.0, 2.2, 0.0), 0.0)
  {
    var g := SecondGear();
    FoldOnAxis(m, g.turnRate, 2.2);
    SqrtOfZero(m);
    GearInsideAtTooth(m, g, 2.2);
    SecondGearPointOutside(m);
  }

  /** The centered second gear has `(0, 2.2, 0)` outside. Relative to the
      center the point is `(0, -2.7, 0.65)`, at distance `sqrt(7.7125)`,
      about 2.78, from the axis. That is beyond the ring, whose outer edge is
      at 2.1, and beyond the tooth tips (`TeethBeyondTips`). */
  lemma SecondGearPointOutside(m: Math)
    requires Lawful(m)
    ensures 0.0 < CenteredGearSdf(m, SecondGear(), Vector(0.0, 2.2, 0.0), 0.0)
  {
    var g := SecondGear();
    var w := Sub(Vector(0.0, 2.2, 0.0), g.center);
    assert w == Vector(0.0, -2.7, 0.65);
    assert Sub(Vector(0.0, w.y, w.z), Zero()) == w;
    assert MagnitudeSquared(w) == 7.7125;
    SqrtAbove(m, 7.7125, 2.7);
    assert 0.0 < Ring(m, Zero(), g.radius, g.thickness, w);
    assert GearPhase(g.turnRate, 0.0) == 0.0;
    RotateXByZero(m, w);
    var angle := -SectorAngle * (Round(m.atan(w.z / w.y) / SectorAngle) as real);
    var back := RotateX(m, w, angle);
    RotateXPreservesRadius(m, w, angle);
    var v := Vector(back.x, Abs(back.y), back.z);
    assert GearFold(m, g.turnRate, w, 0.0) == Mapped(v);
    assert Square(v.y) + Square(v.z) == 7.7125;
    TeethBeyondTips(m, v);
  }

  /** The teeth of a gear of radius 2 and thickness 0.4 stay within
      `sqrt(7.38)` of the axis: the tooth box, grown by the quarter-thickness
      rounding, ends at `y = 2.7` and `|z| = 0.3`. A folded point farther out
      has a positive teeth term. */
  lemma TeethBeyondTips(m: Math, v: Vector)
    requires Lawful(m)
    requires 0.0 <= v.y && 7.38 < Square(v.y) + Square(v.z)
    ensures 0.0 < Teeth(m, 2.0, 0.4, Mapped(v))
  {
    var c, size := Vector(0.0, 2.2, 0.0), Vector(0.4, 0.8, 0.4);
    var p := PositivePart(BoxExcess(c, size, v));
    if p.y <= 0.1 && p.z <= 0.1 {
      SquareBelow(v.y, 2.7);
      SquareBelow(v.z, 0.3);
      assert false;
    }
    SquareNonNegative(p.x);
    SquareNonNegative(p.y);
    SquareNonNegative(p.z);
    if 0.1 < p.y {
      SquareMonotone(0.1, p.y);
    } else {
      SquareMonotone(0.1, p.z);
    }
    SqrtAbove(m, MagnitudeSquared(p), 0.1);
    BoxTerms(c, size, v);
  }

  /** Wherever a gear is centered, if the fold leaves the middle of the tooth
      on the y axis in place, the gear's distance there is negative. */
  lemma GearInsideAtTooth(m: Math, g: Object, y: real)
    requires m.sqrt(0.0) == 0.0
    requires g.Gear? && g.turnRate != 0.0 && 0.0 < g.thickness
    requires y == g.radius + g.thickness / 2.0
    requires GearFold(m, g.turnRate, Vector(0.0, y, 0.0), 0.0) == Mapped(Vector(0.0, y, 0.0))
    ensures GearSdf(m, g, Vector(0.0, y, 0.0), 0.0) < 0.0
  {
    TeethAtToothCenter(m, g.radius, g.thickness);
  }

  /** At time 0 the fold leaves a point on the positive y axis where it is. */
  lemma FoldOnAxis(m: Math, turnRate: real, y: real)
    requires Lawful(m)
    requires turnRate != 0.0 && 0.0 < y
    ensures GearFold(m, turnRate, Vector(0.0, y, 0.0), 0.0) == Mapped(Vector(0.0, y, 0.0))
  {
    var p := Vector(0.0, y, 0.0);
    assert GearPhase(turnRate, 0.0) == 0.0;
    RotateXByZero(m, p);
    assert PointAngle(m, p.y, p.z) == Some(0.0);
    assert Round(0.0 / SectorAngle) == 0;
    assert -SectorAngle * (0 as real) == 0.0;
  }

  /** The tooth's distance at its own center is minus three quarters of the
      thickness. */
  lemma TeethAtToothCenter(m: Math, radius: real, thickness: real)
    requires m.sqrt(0.0) == 0.0
    requires 0.0 <= thickness
    ensures Teeth(m, radius, thickness, Mapped(Vector(0.0, radius + thickness / 2.0, 0.0))) == -thickness * 3.0 / 4.0
  {
    BoxValueAtCenter(m, Vector(0.0, radius + thickness / 2.0, 0.0), Vector(thickness, thickness * 2.0, thickness));
  }

  /** The gear evaluated relative to its center: the point is shifted by
      `-center` and the gear placed at the origin, so that the ring, the
      teeth and the slab all move with the center. */
  function CenteredGearSdf(m: Math, g: Object, point: Vector, time: real): (r: real)
    requires g.Gear? && g.turnRate != 0.0
    ensures Slab(g.thickness, Sub(point, g.center)) <= r
  {
    GearSdf(m, Gear(Zero(), g.radius, g.thickness, g.turnRate), Sub(point, g.center), time)
  }

  /** Moving the gear and the point by the same offset does not change the
      distance. */
  lemma CenteredGearTranslation(m: Math, g: Object, point: Vector, offset: Vector, time: real)
    requires g.Gear? && g.turnRate != 0.0
    ensures CenteredGearSdf(m, Gear(Add(g.center, offset), g.radius, g.thickness, g.turnRate), Add(point, offset), time)
         == CenteredGearSdf(m, g, point, time)
  {
    assert Sub(Add(point, offset), Add(g.center, offset)) == Sub(point, g.center);
  }

  /** A gear at the origin is unaffected by the correction. */
  lemma CenteredGearAtOrigin(m: Math, g: Object, point: Vector, time: real)
    requires g.Gear? && g.turnRate != 0.0
    requires g.center == Zero()
    ensures CenteredGearSdf(m, g, point, time) == GearSdf(m, g, point, time)
  {
    assert Sub(point, Zero()) == point;
  }

  /** Wherever the gear is, the point of its ring's middle circle straight
      above the center is inside it. */
  lemma CenteredGearRimInside(m: Math, g: Object, time: real)
    requires Lawful(m)
    requires g.Gear? && g.turnRate != 0.0
    requires 0.0 < g.thickness && g.thickness / 4.0 <= g.radius
    ensures CenteredGearSdf(m, g, Add(g.center, Vector(0.0, g.radius - g.thickness / 4.0, 0.0)), time) < 0.0
  {
    var a := g.radius - g.thickness / 4.0;
    var q := Vector(0.0, a, 0.0);
    assert Sub(Add(g.center, q), g.center) == q;
    assert Sub(Vector(0.0, q.y, q.z), Zero()) == q;
    assert MagnitudeSquared(q) == Square(a);
    SqrtOfSquare(m, a);
    assert Ring(m, Zero(), g.radius, g.thickness, q) == -g.thickness / 2.0;
  }
}

=== FILE: shading.dfy ===
/** The shading arithmetic shared by `Renderer` (src/renderer.rs) and
    `Camera` (src/camera.rs): the clamped specular term, the blend of
    ambient, diffuse and specular light into one brightness, and the map
    from a brightness to a glyph of the palette.
 */
module Shading {
  import opened Numeric
  import opened Vectors

  /** `x.min(1.0).max(0.0)`. */
  function Clamp01(x: real): (r: real)
    ensures 0.0 <= r <= 1.0
    ensures 0.0 <= x <= 1.0 ==> r == x
    ensures x < 0.0 ==> r == 0.0
    ensures 1.0 < x ==> r == 1.0
  {
    Max(Min(x, 1.0), 0.0)
  }

  /** The specular term `-(normal . light)` clamped to `[0, 1]`. A normal of
      zero length normalises to a vector of NaNs in `f32`; `f32::min` then
      returns its other operand, so the term is `1.0`. */
  function SpecularTerm(normal: Option<Vector>, light: Vector): (r: real)
    ensures 0.0 <= r <= 1.0
    ensures normal.None? ==> r == 1.0
    ensures normal.Some? && 0.0 <= -Dot(normal.value, light) <= 1.0 ==> r == -Dot(normal.value, light)
    ensures normal.Some? && 0.0 <= Dot(normal.value, light) ==> r == 0.0
  {
    match normal
    case None => 1.0
    case Some(n) => Clamp01(-Dot(n, light))
  }

  /** The ambient share of every lit point. */
  const Ambient: real := 0.1

  /** `light_point`: ambient light plus the rest split 70/30 between the
      diffuse and the specular term. */
  function Brightness(diffuse: real, specular: real): (r: real)
    ensures 0.0 <= diffuse <= 1.0 && 0.0 <= specular <= 1.0 ==> Ambient <= r <= 1.0
    ensures diffuse == 0.0 && specular <= 1.0 ==> r <= Ambient + (1.0 - Ambient) * 0.3
    ensures 0.0 < diffuse && 0.0 <= specular ==> Ambient < r
  {
    Ambient + (1.0 - Ambient) * (diffuse * 0.7 + specular * 0.3)
  }

  /** More light in either term never darkens the point. */
  lemma BrightnessMonotone(d1: real, s1: real, d2: real, s2: real)
    requires d1 <= d2 && s1 <= s2
    ensures Brightness(d1, s1) <= Brightness(d2, s2)
  {
  }

  /** The palette position of a brightness: `((1.0 - b) * (len - 1) as f32)
      as usize`. Full brightness picks the first glyph, darkness the last. */
  function GlyphIndex(brightness: real, len: nat): (i: nat)
    requires 1 <= len
  {
    AsUsize((1.0 - brightness) * ((len - 1) as real))
  }

  /** A brightness in `[0, 1]` picks a glyph inside the palette; the miss
      value `0.0` picks the last glyph and full brightness the first. */
  lemma GlyphIndexInRange(brightness: real, len: nat)
    requires 1 <= len
    ensures 0.0 <= brightness <= 1.0 ==> GlyphIndex(brightness, len) < len
    ensures GlyphIndex(0.0, len) == len - 1
    ensures GlyphIndex(1.0, len) == 0
  {
    var l := (len - 1) as real;
    if 0.0 <= brightness <= 1.0 {
      var x := (1.0 - brightness) * l;
      ProductBelow(1.0 - brightness, l);
      assert x <= l;
      var i := AsUsize(x);
      assert i as real <= l by {
        if 0.0 < x {
          assert i as real <= x;
        }
      }
    }
    assert (1.0 - 0.0) * l == l;
    assert (1.0 - 1.0) * l == 0.0;
  }

  /** A point that is lit at least by the ambient share never picks the last
      glyph of a palette with two or more glyphs. */
  lemma GlyphIndexOfLitPoint(brightness: real, len: nat)
    requires 2 <= len
    requires Ambient <= brightness <= 1.0
    ensures GlyphIndex(brightness, len) < len - 1
  {
    var l := (len - 1) as real;
    ProductStrictlyBelow(1.0 - brightness, l);
  }

  /** A brighter point never picks a later (darker) glyph. */
  lemma GlyphIndexMonotone(b1: real, b2: real, len: nat)
    requires 1 <= len
    requires b1 <= b2
    ensures GlyphIndex(b2, len) <= GlyphIndex(b1, len)
  {
    var l := (len - 1) as real;
    ProductMonotone(1.0 - b2, 1.0 - b1, l);
    AsUsizeMonotone(Product(1.0 - b2, l), Product(1.0 - b1, l));
  }

  lemma ProductBelow(a: real, l: real)
    requires 0.0 <= a <= 1.0 && 0.0 <= l
    ensures a * l <= l
  {
    assert l - a * l == (1.0 - a) * l;
    if 0.0 < 1.0 - a && 0.0 < l {
      PositiveProduct(1.0 - a, l);
    }
  }

  lemma ProductStrictlyBelow(a: real, l: real)
    requires a <= 1.0 - Ambient && 0.0 < l
    ensures a * l < l
  {
    assert l - a * l == (1.0 - a) * l;
    PositiveProduct(1.0 - a, l);
  }

  lemma ProductMonotone(a: real, b: real, l: real)
    requires a <= b && 0.0 <= l
    ensures Product(a, l) <= Product(b, l)
  {
    assert Product(b, l) - Product(a, l) == (b - a) * l;
    if a < b && 0.0 < l {
      PositiveProduct(b - a, l);
    }
  }
}

=== FILE: vector.dfy ===
/** The three-component vector of the renderer, with the operator overloads
    of `src/vector.rs` (`+`, `-`, `* f32`, `/ f32`, `* Vector` for the dot
    product) as functions. The renderer files use `cgmath::Vector3<f32>`,
    whose operations are the same componentwise ones; the rotation about the
    x axis below is the action of `cgmath::Matrix3::from_angle_x`.
 */
module Vectors {
  import opened Numeric

  datatype Vector = Vector(x: real, y: real, z: real)

  function Zero(): Vector {
    Vector(0.0, 0.0, 0.0)
  }

  function Add(a: Vector, b: Vector): Vector {
    Vector(a.x + b.x, a.y + b.y, a.z + b.z)
  }

  function Sub(a: Vector, b: Vector): Vector {
    Vector(a.x - b.x, a.y - b.y, a.z - b.z)
  }

  function Scale(v: Vector, s: real): Vector {
    Vector(v.x * s, v.y * s, v.z * s)
  }

  function Div(v: Vector, s: real): Vector
    requires s != 0.0
  {
    Vector(v.x / s, v.y / s, v.z / s)
  }

  /** `impl Mul<Vector> for Vector`: the dot product. */
  function Dot(a: Vector, b: Vector): real {
    a.x * b.x + a.y * b.y + a.z * b.z
  }

  function MagnitudeSquared(v: Vector): real {
    Square(v.x) + Square(v.y) + Square(v.z)
  }

  function Magnitude(m: Math, v: Vector): real {
    m.sqrt(MagnitudeSquared(v))
  }

  /** `normalized`, for a vector whose magnitude is not zero. */
  function Normalized(m: Math, v: Vector): Vector
    requires Magnitude(m, v) != 0.0
  {
    Div(v, Magnitude(m, v))
  }

  /** `normalize` where a zero magnitude is possible: the float code then
      divides 0 by 0 and yields a vector of NaNs, represented here by `None`. */
  function TryNormalize(m: Math, v: Vector): (r: Option<Vector>)
    ensures r.Some? <==> Magnitude(m, v) != 0.0
    ensures SqrtSign(m) ==> (r.Some? <==> v != Zero())
    ensures r.Some? ==> Scale(r.value, Magnitude(m, v)) == v
    ensures r.Some? && Square(Magnitude(m, v)) == MagnitudeSquared(v) ==> MagnitudeSquared(r.value) == 1.0
  {
    MagnitudeSign(m, v);
    if Magnitude(m, v) == 0.0 then None
    else
      NormalizedLaws(m, v);
      Some(Normalized(m, v))
  }

  /** A normalised vector scaled back by the magnitude is the vector again,
      and where `sqrt` is exact on the squared magnitude it has unit length. */
  lemma NormalizedLaws(m: Math, v: Vector)
    requires Magnitude(m, v) != 0.0
    ensures Scale(Normalized(m, v), Magnitude(m, v)) == v
    ensures Square(Magnitude(m, v)) == MagnitudeSquared(v) ==> MagnitudeSquared(Normalized(m, v)) == 1.0
  {
    DivThenScale(v, Magnitude(m, v));
    if Square(Magnitude(m, v)) == MagnitudeSquared(v) {
      NormalizedIsUnit(m, v);
    }
  }

  lemma DivThenScale(v: Vector, s: real)
    requires s != 0.0
    ensures Scale(Div(v, s), s) == v
  {
  }

  /** Componentwise `abs`, the `map(|n| n.abs())` of `cgmath`. */
  function AbsV(v: Vector): Vector {
    Vector(Abs(v.x), Abs(v.y), Abs(v.z))
  }

  /** Componentwise `max(0.0)`. */
  function PositivePart(v: Vector): Vector {
    Vector(Max(v.x, 0.0), Max(v.y, 0.0), Max(v.z, 0.0))
  }

  /** `rotate_z` of `src/vector.rs`. */
  function RotateZ(m: Math, v: Vector, angle: real): Vector {
    Vector(v.x * m.cos(angle) + v.y * m.sin(angle),
           v.y * m.cos(angle) - v.x * m.sin(angle),
           v.z)
  }

  /** `Matrix3::from_angle_x(angle) * v`. */
  function RotateX(m: Math, v: Vector, angle: real): Vector {
    Vector(v.x,
           v.y * m.cos(angle) - v.z * m.sin(angle),
           v.y * m.sin(angle) + v.z * m.cos(angle))
  }

  lemma AddSubCancel(a: Vector, b: Vector)
    ensures Sub(Add(a, b), b) == a
    ensures Add(a, b) == Add(b, a)
  {
  }

  lemma DotSymmetric(a: Vector, b: Vector)
    ensures Dot(a, b) == Dot(b, a)
  {
  }

  lemma MagnitudeSquaredIsSelfDot(v: Vector)
    ensures MagnitudeSquared(v) == Dot(v, v)
  {
  }

  lemma MagnitudeSquaredSign(v: Vector)
    ensures 0.0 <= MagnitudeSquared(v)
    ensures MagnitudeSquared(v) == 0.0 <==> v == Zero()
  {
    SquareNonNegative(v.x);
    SquareNonNegative(v.y);
    SquareNonNegative(v.z);
    if v.x != 0.0 {
      SquarePositive(v.x);
    } else if v.y != 0.0 {
      SquarePositive(v.y);
    } else if v.z != 0.0 {
      SquarePositive(v.z);
    }
  }

  lemma ScaleByOneAndDivByReciprocal(v: Vector, r: real)
    ensures Scale(v, 1.0) == v
    ensures r != 0.0 ==> Div(v, r) == Scale(v, 1.0 / r)
  {
  }

  /** Under the sign laws of `sqrt`, a magnitude is never negative and is
      positive exactly for a nonzero vector. */
  lemma MagnitudeSign(m: Math, v: Vector)
    ensures SqrtNonNegative(m) ==> 0.0 <= Magnitude(m, v)
    ensures SqrtSign(m) ==> (0.0 < Magnitude(m, v) <==> v != Zero())
  {
    MagnitudeSquaredSign(v);
    SqrtSignOf(m, MagnitudeSquared(v));
  }

  /** A vector along the positive x axis is as long as its x coordinate. */
  lemma MagnitudeOnXAxis(m: Math, a: real)
    requires Lawful(m)
    requires 0.0 <= a
    ensures Magnitude(m, Vector(a, 0.0, 0.0)) == a
  {
    assert MagnitudeSquared(Vector(a, 0.0, 0.0)) == Square(a);
    SqrtOfSquare(m, a);
  }

  /** A nonzero vector has a nonzero magnitude, so it can be normalised. */
  lemma NonZeroMagnitude(m: Math, v: Vector)
    requires Lawful(m)
    requires v != Zero()
    ensures 0.0 < Magnitude(m, v)
  {
    MagnitudeSquaredSign(v);
    SqrtOfPositive(m, MagnitudeSquared(v));
  }

  /** Normalising gives a unit vector wherever `sqrt` is exact on the
      squared magnitude, which `ExactMagnitude` shows for a lawful `sqrt`. */
  lemma NormalizedIsUnit(m: Math, v: Vector)
    requires Magnitude(m, v) != 0.0
    requires Square(Magnitude(m, v)) == MagnitudeSquared(v)
    ensures MagnitudeSquared(Normalized(m, v)) == 1.0
  {
    var q := MagnitudeSquared(v);
    var s := Magnitude(m, v);
    var n := Normalized(m, v);
    assert n == Scale(v, 1.0 / s);
    ScaleMagnitudeSquared(v, 1.0 / s);
    assert MagnitudeSquared(n) == (1.0 / s) * (1.0 / s) * q;
    ReciprocalSquare(s, q);
  }

  lemma ExactMagnitude(m: Math, v: Vector)
    requires Lawful(m)
    ensures Square(Magnitude(m, v)) == MagnitudeSquared(v)
  {
    MagnitudeSquaredSign(v);
  }

  lemma ReciprocalSquare(s: real, q: real)
    requires s != 0.0 && s * s == q
    ensures (1.0 / s) * (1.0 / s) * q == 1.0
  {
    calc {
      (1.0 / s) * (1.0 / s) * q;
      (1.0 / s) * (1.0 / s) * (s * s);
      ((1.0 / s) * s) * ((1.0 / s) * s);
      1.0;
    }
  }

  lemma ScaleMagnitudeSquared(v: Vector, c: real)
    ensures MagnitudeSquared(Scale(v, c)) == c * c * MagnitudeSquared(v)
  {
  }

  /** `rotate_z` keeps `z` and the squared distance from the z axis, given
      that the sine and cosine of the angle satisfy the Pythagorean identity. */
  lemma RotateZPreservesRadius(m: Math, v: Vector, angle: real)
    requires Lawful(m)
    ensures RotateZ(m, v, angle).z == v.z
    ensures var r := RotateZ(m, v, angle); r.x * r.x + r.y * r.y == v.x * v.x + v.y * v.y
  {
    var c, s := m.cos(angle), m.sin(angle);
    assert s * s + c * c == 1.0;
    PlaneRotation(v.x, v.y, c, s);
  }

  /** The rotation about the x axis keeps `x` and the squared distance from
      the x axis. */
  lemma RotateXPreservesRadius(m: Math, v: Vector, angle: real)
    requires Lawful(m)
    ensures RotateX(m, v, angle).x == v.x
    ensures var r := RotateX(m, v, angle); r.y * r.y + r.z * r.z == v.y * v.y + v.z * v.z
  {
    var c, s := m.cos(angle), m.sin(angle);
    assert s * s + c * c == 1.0;
    PlaneRotation(v.y, -v.z, c, s);
  }

  /** Rotating by the zero angle is the identity. */
  lemma RotateXByZero(m: Math, v: Vector)
    requires Lawful(m)
    ensures RotateX(m, v, 0.0) == v
  {
  }

  lemma PlaneRotation(a: real, b: real, c: real, s: real)
    requires s * s + c * c == 1.0
    ensures (a * c + b * s) * (a * c + b * s) + (b * c - a * s) * (b * c - a * s) == a * a + b * b
  {
    var cc, ss := c * c, s * s;
    calc {
      (a * c + b * s) * (a * c + b * s) + (b * c - a * s) * (b * c - a * s);
      a * a * cc + 2.0 * a * b * c * s + b * b * ss + b * b * cc - 2.0 * a * b * c * s + a * a * ss;
      a * a * (cc + ss) + b * b * (cc + ss);
      { assert cc + ss == 1.0; }
      a * a + b * b;
    }
  }
}
